=== FILE: README.md ===
# Ticket sync engine — a verified model

This project models the core of the QA feature tracker: the engine that pulls
feature tickets from the issue tracker, keeps those committed to QA, and
builds one normalised row per qualifying QA task. It then reconciles those
rows into a document store that the dashboard reads and annotates.

The model covers these parts, one Dafny module each:

- **Text**: the case-insensitive substring and marker predicates used by the
  classifier. It includes a scanner for `#teams_committed.*?QA`, which returns
  the leftmost match and, for that start, the shortest one.
- **Chunking**: `_chunked`, as a function and as a generator-style loop.
- **Backoff**: the retry policy of `_search_issues_with_backoff`. The search is
  a parameter `call` that answers attempt number `k`. Delays are whole
  milliseconds.
- **Tracker**: the issue records the engine reads, with every optional field
  as an `Option`.
- **BulkFetch**: `_bulk_fetch_issues_by_keys`. It de-duplicates keys and
  merges chunk results sequentially. A lemma shows that any completion order
  of the parallel path gives the same map.
- **Classifier**: the optimized fetcher. It covers the commitment filter, the
  link-key collector, `_qa_filter`, the row builder with first-match Auto/TMS
  discovery, and the fan-out loop of `fetch_tickets`.
- **LegacyFetcher**: the older fetcher. It covers the last-match row builder,
  the committed-task filter, and qualification with one lookup per link.
  Every raise is an explicit `None`.
- **Store**: the `Database` wrapper. A collection is an existence flag plus a
  map from `_id` to a field map. `$set` is a field merge, `$push` appends to
  `comments`, and `insert_many` is ordered.
- **Sync**: `force_refetch_and_update` as a fold over the fetched tickets with
  its three counters. It also covers `balance` (read-through cache) and
  `comments_addition`.
- **Dashboard**: the pure helpers of the dashboard. These are identity
  rebuild, `_id` split, filter state, `apply_filter`, and the comment and
  effort guards.

The tracker, the store's server and the clock are not called. Each is
represented as follows:

- The tracker is a map from key to issue.
- A failing chunk search is a predicate `failed` over chunks. It stands for a
  search whose retries are exhausted.
- Each store write has a `WriteFate` that the caller supplies:
  - `Acked`: the write is acknowledged.
  - `Unacked`: the write is applied, but `acknowledged` is false.
  - `Raises`: a driver exception before anything is written.
- A fetch result is a `Result` value.
- Sleeps are recorded in a trace instead of being performed.

## Model

| member | source | states |
|---|---|---|
| Chunking.Chunked | packages/ticketfetchers/ticket_fetcher_optimized.py:66-74 | The chunks concatenate back to the input. Every chunk is non-empty, every chunk but the last has exactly `size` items, and the last has at most `size`. There are ceil(n/size) chunks. A size below 1 acts as 1. |
| Chunking.ChunkStream | packages/ticketfetchers/ticket_fetcher_optimized.py:66-74 | The generator loop (accumulate, yield when full, yield the remainder) produces exactly the chunking above. |
| Chunking.ChunkingUnique | packages/ticketfetchers/ticket_fetcher_optimized.py:66-74 | Any two chunkings of the same input at the same width are equal, so the chunk contract determines the generator's output completely. |
| Backoff.RetryFrom | packages/ticketfetchers/ticket_fetcher_optimized.py:80-97 | From any attempt on, the loop returns the first successful answer or the failure of attempt `maxRetries`. The pauses taken from that attempt on double from the pending delay. |
| Backoff.SearchWithBackoff | packages/ticketfetchers/ticket_fetcher_optimized.py:76-97 | At most maxRetries+1 attempts. The result is the answer of the last attempt, and all earlier attempts failed. A failure is re-raised only after the final attempt. Pause k is base·2^k, and there is no pause after the last attempt. |
| Backoff.ExhaustedSearch | packages/ticketfetchers/ticket_fetcher_optimized.py:80-97 | With the shipped tunables, a search that always fails is tried 5 times and re-raises the 5th failure, after pauses of 1500, 3000, 6000 and 12000 ms. |
| Backoff.SucceedsAt | packages/ticketfetchers/ticket_fetcher_optimized.py:81-88 | A search first succeeding at attempt n returns that answer after n+1 attempts. |
| BulkFetch.DistinctKeys | packages/ticketfetchers/ticket_fetcher_optimized.py:104 | The key list holds exactly the non-empty input keys, each once. |
| BulkFetch.DistinctKeysOfDistinct | packages/ticketfetchers/ticket_fetcher_optimized.py:104 | Keys that are already distinct and non-empty pass through de-duplication unchanged. |
| BulkFetch.SearchChunk | packages/ticketfetchers/ticket_fetcher_optimized.py:110-112 | A chunk search returns only tracker records for keys of the chunk, and returns every record the tracker holds for them. |
| BulkFetch.Absorb | packages/ticketfetchers/ticket_fetcher_optimized.py:129-130 | Merging records files every record under its own key, keeps earlier keys, and only adds returned records. |
| BulkFetch.MergeChunks | packages/ticketfetchers/ticket_fetcher_optimized.py:126-130 | The sequential merge fails exactly when some chunk's search fails. |
| BulkFetch.MergeAnswers | packages/ticketfetchers/ticket_fetcher_optimized.py:126-130 | A successful merge answers every requested key: each entry is the tracker's record filed under its own key, and each answered key is present. |
| BulkFetch.AnswersUnique | packages/ticketfetchers/ticket_fetcher_optimized.py:119-130 | When the tracker answers consistently, there is only one map that answers a key set, so the merge result does not depend on order. |
| BulkFetch.BulkFetchIssues | packages/ticketfetchers/ticket_fetcher_optimized.py:99-132 | Input with no non-empty key gives an empty map without searching. The fetch fails exactly when a chunk of the de-duplicated keys fails. Otherwise the map answers the requested keys. |
| BulkFetch.ParallelMergeAgrees | packages/ticketfetchers/ticket_fetcher_optimized.py:119-125 | Merging the chunks in any completion order gives the same result as the sequential path. |
| BulkFetch.FiveKeysThreeSearches | packages/ticketfetchers/ticket_fetcher_optimized.py:104-114 | Five distinct keys in chunks of two are searched as [A,B], [C,D], [E]. |
| Text.SearchCommitMarker | packages/ticketfetchers/ticket_fetcher_optimized.py:60 | The marker search finds a span exactly when the description matches the marker. The span is leftmost: no match starts earlier. It is also the shortest (non-greedy) match from that start. |
| Classifier.QaCommittedTasks | packages/ticketfetchers/ticket_fetcher_optimized.py:205-214 | Keeps exactly the features whose description matches the committed-to-QA marker. A missing description never matches. |
| Classifier.QaCommittedTasksAppend | packages/ticketfetchers/ticket_fetcher_optimized.py:209-214 | The filter keeps the features' order. It distributes over concatenation, and a single feature is kept exactly when it is committed. |
| Classifier.CommitMarkerExample | packages/ticketfetchers/ticket_fetcher_optimized.py:60 | The marker may be separated from "QA" by other text on the same line, and "QA" may be in upper case. |
| Classifier.UncommittedFeatureDropped | packages/ticketfetchers/ticket_fetcher_optimized.py:209-213 | A feature without the marker never reaches the fan-out. |
| Classifier.CandidateKeyOf | packages/ticketfetchers/ticket_fetcher_optimized.py:223-233 | A link yields a key exactly when its inward type is "Comprised of Task", it has a linked side (inward before outward), and that side's key is non-empty. The key yielded is that side's key. |
| Classifier.CandidateLinkedKeys | packages/ticketfetchers/ticket_fetcher_optimized.py:216-234 | The candidate keys are exactly the keys yielded by the feature's links. All are non-empty, and there are no more keys than links. |
| Classifier.CandidateLinkedKeysAppend | packages/ticketfetchers/ticket_fetcher_optimized.py:223-233 | The keys come in link order with duplicates kept: the collector distributes over concatenation of link lists. |
| Classifier.CandidateLinkedKeysOne | packages/ticketfetchers/ticket_fetcher_optimized.py:224-232 | A single link contributes exactly the key `CandidateKeyOf` names, or nothing. With the append lemma this fixes the whole list. |
| Classifier.QaFilterCases | packages/ticketfetchers/ticket_fetcher_optimized.py:236-257 | `_qa_filter` is fail-closed. A qualifying task is a Task with a triage value and a status other than "Rejected". For such a Task it qualifies exactly when the triage is the sentinel string, or a non-empty list whose first entry renders as the sentinel. A wrong or missing type, a missing or empty triage, or status "Rejected" never qualifies. A missing status does not disqualify. |
| Classifier.TaskDetails | packages/ticketfetchers/ticket_fetcher_optimized.py:138-151 | Every built row starts with an empty comment thread. |
| Classifier.RowWithoutQaTask | packages/ticketfetchers/ticket_fetcher_optimized.py:138-154 | Without a QA task, the row's `_id` is the feature key and every QA/Auto/TMS field is "NA". |
| Classifier.RowWithQaTask | packages/ticketfetchers/ticket_fetcher_optimized.py:138-158 | With a QA task, `_id` is feature key + "\|" + QA key, QA_task is the QA key, and splitting `_id` at the first "\|" gives back the feature key. |
| Classifier.SlotScanKeeps | packages/ticketfetchers/ticket_fetcher_optimized.py:191-197 | Once a slot holds a task, later matches never overwrite it. |
| Classifier.SlotScanFirstMatch | packages/ticketfetchers/ticket_fetcher_optimized.py:191-197 | An empty slot ends up holding the first candidate that matches with a real key. A missing status reads as "NA". |
| Classifier.SlotScanNoMatch | packages/ticketfetchers/ticket_fetcher_optimized.py:191-197 | With no matching candidate the slot stays as it was. |
| Classifier.ScanLinkIsSlotScans | packages/ticketfetchers/ticket_fetcher_optimized.py:172-201 | Scanning one link, including the early `break`, equals offering its Task-typed sides in order to both slots. |
| Classifier.ScanLinksIsSlotScans | packages/ticketfetchers/ticket_fetcher_optimized.py:170-201 | The whole nested loop equals two independent first-match scans over all Task-typed sides. The `break` only saves work. |
| Classifier.AutoFirstMatch | packages/ticketfetchers/ticket_fetcher_optimized.py:178-193 | Auto_task/Auto_status come from the first Task-typed linked issue whose summary contains "auto" in any case. |
| Classifier.TmsFirstMatch | packages/ticketfetchers/ticket_fetcher_optimized.py:178-197 | TMS_task/TMS_status come from the first Task-typed linked issue whose summary contains "tms" in any case. |
| Classifier.NoSubTaskMatch | packages/ticketfetchers/ticket_fetcher_optimized.py:169-201 | If no Task-typed side mentions "auto" or "tms", all four sub-task fields stay "NA". |
| Classifier.FeatureToKeys | packages/ticketfetchers/ticket_fetcher_optimized.py:277-282 | Every committed feature has an entry, and each entry holds the candidate keys of some feature with that key. |
| Classifier.FeatureToKeysOwn | packages/ticketfetchers/ticket_fetcher_optimized.py:279-281 | With distinct feature keys, each feature's entry holds its own candidate keys. |
| Classifier.AllLinkedKeys | packages/ticketfetchers/ticket_fetcher_optimized.py:277-282 | The bulk fetch is asked for every candidate key of every committed feature, and for no other key. |
| Classifier.QualifyingIssues | packages/ticketfetchers/ticket_fetcher_optimized.py:296-300 | Exactly the fetched issues that pass `_qa_filter` are kept: each kept issue was fetched for a candidate key, and every candidate key whose fetched issue passes is kept. There is at most one issue per key. |
| Classifier.QualifyingIssuesAppend | packages/ticketfetchers/ticket_fetcher_optimized.py:296-300 | Qualifying issues come in key order. The filter distributes over concatenation of key lists. |
| Classifier.FeatureRows | packages/ticketfetchers/ticket_fetcher_optimized.py:292-303 | Every committed feature yields at least one row, and each row's `_id` is the feature key alone or the feature key followed by "\|" and a QA key. |
| Classifier.FanOut | packages/ticketfetchers/ticket_fetcher_optimized.py:292-303 | A feature yields one row per qualifying QA task, in order and with `_id` feature\|qa, or else exactly one NA row keyed by the feature. |
| Classifier.FanOutDistinctIds | packages/ticketfetchers/ticket_fetcher_optimized.py:296-300 | Distinct qualifying QA keys give distinct row ids within a feature. |
| Classifier.FeatureRowsBelongToFeature | packages/ticketfetchers/ticket_fetcher_optimized.py:139 | Every row of a feature renders back to that feature's key and has no comments. |
| Classifier.AssembleRows | packages/ticketfetchers/ticket_fetcher_optimized.py:292-303 | The table has at least one row per committed feature. |
| Classifier.AssembleRowsCoverFeatures | packages/ticketfetchers/ticket_fetcher_optimized.py:292-303 | Every committed feature has a row whose `_id` is its key, or its key followed by "\|" and a QA key. Another feature's row such as "F-10\|…" does not count for "F-1". |
| Classifier.AssembleRowsOnlyFeatures | packages/ticketfetchers/ticket_fetcher_optimized.py:292-303 | Every row's `_id` is the key of some committed feature, or that key followed by "\|" and a QA key. |
| Classifier.AssembleRowsAppend | packages/ticketfetchers/ticket_fetcher_optimized.py:292-303 | The table lists the features' blocks in feature order: assembly distributes over concatenation of feature lists. |
| Classifier.AssembleRowsContains | packages/ticketfetchers/ticket_fetcher_optimized.py:292-303 | Every row a committed feature contributes is in the table. |
| Classifier.QualifyingTaskGetsRow | packages/ticketfetchers/ticket_fetcher_optimized.py:277-303 | End to end, with distinct committed feature keys: a candidate key of a committed feature whose fetched issue passes `_qa_filter` gets a row with `_id` feature\|qa and that QA task. |
| Classifier.FetchTickets | packages/ticketfetchers/ticket_fetcher_optimized.py:259-311 | A failed feature search is returned as the error. Otherwise the call fails exactly when the bulk fetch of the committed features' candidate keys fails. A success has at least one row per committed feature. Each committed feature has a row whose `_id` is its key alone or followed by "\|qa", and every row's `_id` has that form for some committed feature. |
| Classifier.FetchTicketsQaRows | packages/ticketfetchers/ticket_fetcher_optimized.py:292-300 | On a successful `fetch_tickets` with distinct committed feature keys, every candidate key of a committed feature whose fetched issue passes `_qa_filter` has its own row, with `_id` feature\|key and that QA task. |
| LegacyFetcher.LegacyCommitted | packages/ticketfetchers/ticket_fetcher.py:66-75 | The older filter raises on a missing description. Otherwise it keeps exactly the features the optimized filter keeps. |
| LegacyFetcher.LegacyTaskDetails | packages/ticketfetchers/ticket_fetcher.py:18-64 | The legacy row builder raises exactly when the feature lacks a status or summary, or a given QA task lacks a status or its link scan raises. A row carries the feature's key, status and summary. With a QA task it carries that task's key, status and joined labels, and the Auto/TMS cells the link scan found. |
| LegacyFetcher.LegacyRowWithoutQaTask | packages/ticketfetchers/ticket_fetcher.py:20-32 | A legacy row without a QA task has Feature_task = feature key and every QA/Auto/TMS field "NA". |
| LegacyFetcher.LastHit | packages/ticketfetchers/ticket_fetcher.py:46-61 | Locates the last candidate whose summary matches; none after it matches. |
| LegacyFetcher.LastWinsNoHit | packages/ticketfetchers/ticket_fetcher.py:49-54 | If no candidate matches, the legacy slot keeps its initial value. |
| LegacyFetcher.LastWinsAt | packages/ticketfetchers/ticket_fetcher.py:49-54 | The slot ends with the last matching candidate, whatever came before. |
| LegacyFetcher.LegacyScanIsLastWins | packages/ticketfetchers/ticket_fetcher.py:46-61 | A legacy scan that does not raise equals a last-wins pass over the Task-typed sides, for both Auto and TMS. |
| LegacyFetcher.LegacyAutoLastMatch | packages/ticketfetchers/ticket_fetcher.py:46-54 | Auto_task/Auto_status come from the last matching Task-typed linked issue, and stay "NA" if none matches. |
| LegacyFetcher.FirstMatchVersusLastMatch | packages/ticketfetchers/ticket_fetcher.py:46-61 | For the same QA task with two "auto" links, the optimized row keeps the first and the legacy row keeps the second. |
| LegacyFetcher.LegacyQualifying | packages/ticketfetchers/ticket_fetcher.py:85-98 | The loop raises exactly when some "Comprised of Task" link with a linked side has one of three problems. The side has no type. Or the side is a Task whose key is missing or cannot be fetched. Or the fetched issue passes the triage test but has no status. Otherwise the children kept are exactly the fetched issues of such links whose side is a Task, whose triage[0] is the sentinel and whose status is not "Rejected". There are no more children than links. |
| LegacyFetcher.LegacyDetailsAll | packages/ticketfetchers/ticket_fetcher.py:93-96 | A legacy feature yields one row per qualifying child, each built from that child. |
| LegacyFetcher.LegacyFanOut | packages/ticketfetchers/ticket_fetcher.py:82-102 | A legacy feature yields one row per qualifying child, or exactly one NA row when none qualifies. |
| LegacyFetcher.LegacyFeatureRows | packages/ticketfetchers/ticket_fetcher.py:82-102 | Every legacy feature that does not raise yields at least one row, and each of its rows names that feature in Feature_task. |
| LegacyFetcher.LegacyRowsFor | packages/ticketfetchers/ticket_fetcher.py:82-102 | The per-feature loop raises exactly when some committed feature raises. Otherwise every committed feature has a row, and every row is for a committed feature. |
| LegacyFetcher.LegacyFetchTickets | packages/ticketfetchers/ticket_fetcher.py:77-105 | `fetch_tickets` raises exactly when the committed filter raises or some committed feature raises. Otherwise every committed feature has at least one row, and every row's Feature_task is a committed feature's key. |
| LegacyFetcher.QualificationAgrees | packages/ticketfetchers/ticket_fetcher.py:93 | For a Task whose triage list starts with a plain string and whose status is set, legacy and optimized qualification agree. |
| LegacyFetcher.BareStringTriageDiffers | packages/ticketfetchers/ticket_fetcher.py:93 | A bare-string triage "73317" qualifies in the optimized filter but not in the legacy one. |
| Store.Find | packages/database/schema.py:48-57 | Returns a document exactly when one is stored under the id. The document returned is the stored one, and its `_id` is the id. |
| Store.InsertEach | packages/database/schema.py:37-46 | The ordered insert keeps every earlier document unchanged. On success every document carries an id, and exactly the batch's ids are added. |
| Store.InsertEachStops | packages/database/schema.py:37-46 | A failed ordered insert stopped at some document i: every document before it carries an id and is stored, nothing from i on is stored, and document i is refused either for lacking a string id or for an id already taken. |
| Store.Insert | packages/database/schema.py:37-46 | An empty batch is refused and nothing changes. A success answers the acknowledgement and the collection exists afterwards. Stored documents are never altered. Well-formedness is kept. |
| Store.InsertThenFind | packages/database/schema.py:37-57 | After inserting fresh, distinct ids, each document is found under its id, and the count grows by the batch size. |
| Store.DuplicateStopsInsert | packages/database/schema.py:46 | Inserting a document whose id is already stored fails with a duplicate-key error and changes nothing. |
| Store.Update | packages/database/schema.py:86-98 | `$set` merges: on the matched document exactly the given fields take the given values, and every other field (`comments` included) and every other document is unchanged. No match changes nothing. An empty `$set` matches and changes nothing. A changed `_id` is refused. |
| Store.UpdateEffort | packages/database/schema.py:104-114 | Only the `Effort` field of the one document changes, and the answer is the acknowledgement. |
| Store.UpdateComments | packages/database/schema.py:124-134 | One comment is appended at the end of the thread, creating the thread if missing. Every other field and document is unchanged. A non-array field is refused. |
| Store.CommentsAppendInOrder | packages/database/schema.py:124-134 | Two pushes leave the earlier comments first, then the two new ones in order. |
| Store.Delete | packages/database/schema.py:67-76 | Removes only the document with that id, lowering the count by one if it existed. |
| Store.DeleteAll | packages/database/schema.py:78-84 | Leaves the count at 0 and the collection's existence unchanged. |
| Store.InsertThenDelete | packages/database/schema.py:37-76 | Deleting a freshly inserted document restores the previous contents. |
| Sync.Payload | packages/help.py:62-73 | The update payload has exactly the ten listed fields, takes each from the ticket (null if missing), and never contains `comments`, `Effort` or `_id`. |
| Sync.SyncStep | packages/help.py:50-94 | Per ticket: a falsy `_id` is skipped uncounted. A raise counts one error and writes nothing. An existing id gets the payload `$set` and counts as updated. A new id is inserted whole and counts as inserted if acknowledged, or as an error if not. A truthy non-string `_id` counts as an error and stores nothing. |
| Sync.ForceRefetchAndUpdate | packages/help.py:15-101 | An absent collection answers false and is untouched. A fetch failure propagates. An empty fetch answers false and changes nothing. Otherwise the answer is whether anything was updated or inserted. |
| Sync.FreshTicketInserted | packages/help.py:82-90 | An acknowledged ticket with a fresh, non-empty id is stored whole under its id and counted as inserted. |
| Sync.EveryTicketCountedOnce | packages/help.py:50-94 | Each ticket with a truthy `_id` adds exactly one to updated + inserted + errors; the others add nothing. |
| Sync.SyncKeepsUnsynced | packages/help.py:58-90 | The loop never deletes a document, and never adds, removes or changes a field outside the ten-field payload on a document stored before. |
| Sync.StepKeepsUnsynced | packages/help.py:58-90 | One ticket's write never deletes a document, and never touches a field outside the payload of a document stored before. |
| Sync.RefetchKeepsCommentsAndEffort | packages/help.py:15-101 | A refetch never touches the comments or the effort of any stored document. |
| Sync.AllRaisingChangesNothing | packages/help.py:92-94 | From any point of the loop, if every remaining write raises, the store is unchanged and neither the updated nor the inserted counter moves. |
| Sync.AllRaisingAnswersFalse | packages/help.py:92-94 | When every ticket's write raises, the store is unchanged and the answer is false. |
| Sync.FirstRunInserts | packages/help.py:82-90 | With fresh, distinct, non-empty ids and acknowledged writes, the remaining tickets are all counted as inserted. Every earlier document is kept, and each ticket is stored whole under its id. |
| Sync.SecondRunUpdates | packages/help.py:58-81 | When every remaining ticket's id is already stored, each is counted as updated and the set of stored ids does not change. |
| Sync.RefetchInsertsAll | packages/help.py:82-90 | On an existing empty collection, distinct ids are all inserted (0 updated, n inserted, 0 errors), each is found afterwards, and the answer is true. |
| Sync.RefetchUpdatesAll | packages/help.py:58-81 | When every ticket's id is stored, all are updated (n updated, 0 inserted, 0 errors), no id is added, and the answer is true. |
| Sync.RefetchTwice | packages/help.py:50-101 | The same batch run twice on an existing empty collection gives all inserts first, then all updates, and both runs answer true. |
| Sync.Balance | packages/help.py:104-124 | An existing collection is returned as stored without fetching. Otherwise a failed fetch, an empty batch or an unacknowledged insert gives false. A success returns exactly the stored documents. |
| Sync.BalanceFillsThenReads | packages/help.py:104-124 | After a successful fill, every fetched ticket is stored and the count equals the batch size. The next call returns the same contents without fetching. |
| Sync.CommentsAdditionAppends | packages/help.py:6-8 | Adding a comment appends it to that document's thread and changes no other document. |
| Sync.RowDocument | packages/ticketfetchers/ticket_fetcher_optimized.py:138-151 | A row's JSON record carries the row id as `_id`, the row's comments, and a string in every payload field, and has no `Effort`. |
| Sync.RefreshWithSameRowIsIdentity | packages/help.py:60-75 | Refreshing a stored row with the payload of the same row changes nothing. |
| Dashboard.GetTicketId | app.py:132-139 | The QA key is appended as "\|qa" only when it contains "SWDEV". Otherwise the id is the bare feature id. |
| Dashboard.FormatQaTaskKey | app.py:132-134 | The suffix is "\|qa" when the QA key contains "SWDEV", and empty otherwise. |
| Dashboard.NoQaTaskIdIsFeature | app.py:137-139 | The id rebuilt for QA task "NA" is the feature id. |
| Dashboard.FeatureIdOf | app.py:705-707 | The rendered feature id is the part of `_id` before the first "\|": a prefix with no "\|", followed in `_id` by "\|" unless it is all of `_id`. |
| Dashboard.FeatureIdOfRow | app.py:705-707 | The rendered feature id of any built row is its feature key. |
| Dashboard.GetTicketIdRoundTrip | app.py:137-139 | For QA keys containing "SWDEV", the grid's feature id and QA task give back the stored `_id`. |
| Dashboard.GetTicketIdMissesOtherProjects | app.py:132-139 | For a QA key outside that project, the rebuilt id differs from the stored `_id`. |
| Dashboard.TicketIdForRoundTrip | app.py:137-139 | The corrected rebuild gives back the stored `_id` of every built row with or without a QA task. |
| Dashboard.InitializeFilterState | app.py:171-179 | A release without a filter gets a cleared one, an existing filter is kept, and no other entry changes. |
| Dashboard.ToggleTwice | app.py:182-196 | Clicking the active type and value clears the filter. Otherwise the click sets exactly (type, value, column). A second identical click undoes a first one that set the filter. |
| Dashboard.ToggleTwiceClears | app.py:182-196 | From a cleared state, two identical clicks end cleared. |
| Dashboard.SetFilter | app.py:182-196 | A click clears the filter exactly when the active type and value are the clicked ones. Otherwise the filter becomes exactly (type, value, column). |
| Dashboard.ClearFilter | app.py:199-203 | Type, value and column are all None afterwards. |
| Dashboard.ClearThenSet | app.py:182-203 | After clearing, the next click always activates its filter. |
| Dashboard.Select | app.py:216-223 | Row selection keeps exactly the rows satisfying the mask, and no more rows than before. |
| Dashboard.SelectAppend | app.py:216-223 | Selection distributes over concatenation, so the kept rows keep their order. |
| Dashboard.ApplyFilter | app.py:206-225 | These return the frame unchanged: no filter for the release, an inactive filter, or a column not in the frame. The assignee filter raises exactly when `QA_status` is missing. Otherwise only rows of the input are kept and the columns stay. |
| Dashboard.ClearedFilterShowsAll | app.py:206-225 | A cleared filter shows the whole frame. |
| Dashboard.ApplyFilterKeepsMatches | app.py:216-223 | An active filter keeps exactly the rows whose column equals the value. The assignee filter also drops rows whose QA_status is "Implemented". |
| Dashboard.SelectIdempotent | app.py:216-223 | Selecting twice with the same mask equals selecting once. |
| Dashboard.ApplyFilterIdempotent | app.py:206-225 | Filtering an already filtered frame again changes nothing. |
| Dashboard.HandleComment | app.py:570-591 | As written, with the id rebuilt by `get_ticket_id`: a blank comment writes nothing and answers false. A non-blank comment whose rebuilt id matches no document writes nothing but answers the acknowledgement. When the rebuilt id matches a document whose comments are absent or a list, the comment is appended and the answer is the acknowledgement. No document other than the rebuilt id's changes. |
| Dashboard.HandleEffort | app.py:594-610 | As written, with the id rebuilt by `get_ticket_id`: re-selecting the current effort writes nothing and answers false. A new effort whose rebuilt id matches no document writes nothing but answers the acknowledgement. When the rebuilt id matches a document, only its Effort field is set and the answer is the acknowledgement. No document other than the rebuilt id's changes. |
| Dashboard.CommentOn | app.py:570-591 | The comment handler on a resolved id. A blank comment is refused with nothing written. Otherwise the comment is appended to that document's thread and the answer is the acknowledgement. An unmatched id writes nothing and still answers the acknowledgement. No other document changes. |
| Dashboard.EffortOn | app.py:594-610 | The effort handler on a resolved id. Re-selecting the current effort writes nothing and answers false. Otherwise only `Effort` of that document changes, and the answer is the acknowledgement. |
| Dashboard.WriteLostForOtherProjects | app.py:570-610 | On a store holding only "F-1\|QA-2", a comment and an effort chosen on the grid row F-1 / QA-2 are acknowledged but write nothing. The corrected handlers write them to "F-1\|QA-2". |
| Dashboard.FixedCommentReachesRow | app.py:570-591 | With the corrected rebuild, a non-blank comment chosen on any built row's grid cells is appended to that row's stored document. |
| Dashboard.FixedEffortReachesRow | app.py:594-610 | With the corrected rebuild, a new effort chosen on any built row's grid cells is set on that row's stored document. |

## Findings

| source | as written | input that shows it | evidently intended | confidence | as-written member | corrected member |
|---|---|---|---|---|---|---|
| app.py:132-139 | `get_ticket_id` appends "\|qa" only when the QA key contains "SWDEV", but the row builder writes `_id` = feature\|qa for every QA task (packages/ticketfetchers/ticket_fetcher_optimized.py:139). | Feature "F-1" with QA task "QA-2": stored `_id` "F-1\|QA-2", rebuilt id "F-1", so a comment or effort edit addresses a document that does not exist. | Append the QA key whenever the row has a QA task, that is, whenever QA_task is not "NA". | medium (depends on whether QA tasks outside the SWDEV project occur); not executed | Dashboard.WriteLostForOtherProjects | Dashboard.FixedCommentReachesRow |

`Dashboard.GetTicketIdMissesOtherProjects` also shows the mismatch of ids
alone. `Dashboard.TicketIdForRoundTrip` proves the corrected rebuild.
`Dashboard.FixedEffortReachesRow` proves it for the effort write.
`Dashboard.HandleComment` and `Dashboard.HandleEffort` model the code as
written. `Dashboard.HandleCommentFixed` and `Dashboard.HandleEffortFixed` are
the corrected handlers.

## Left out

- Tracker and store I/O: the JIRA client, MongoDB connections, cursors and
  `close`. The tracker is a map and the store a value. `get_all_collections`,
  `delete_collection` and `get_comments` are not modelled; the last is
  `Store.Find`.
- Concurrency: the thread pool is replaced by any completion order of the
  chunk list (`BulkFetch.ParallelMergeAgrees`).
- Sleeping: pauses are recorded, not taken. Delays are milliseconds instead of
  float seconds.
- Backoff.SearchWithBackoff: every failure is retried. The docstring speaks of
  transient failures, but the code catches every exception, and the model
  follows the code.
- Regex engine: the marker and the "auto"/"tms" searches are explicit
  substring predicates. Case folding is ASCII only. `.` does not cross a
  newline, which the marker predicate states. No lemma shows a marker split
  across lines failing.
- BulkFetch.BulkFetchIssues: the failure of a chunk is a predicate over
  chunks. It stands for the whole retried search, and `SearchWithBackoff`
  states that search's policy separately.
- MAX_RESULTS and `max_results=len(chunk)`: the tracker is assumed to return
  every match. Result caps are not modelled.
- The `except Exception` branch of `_qa_filter` cannot fire on the model's
  records, because every field access is total.
- Set iteration order: the de-duplicated key order is first-occurrence order.
  The row set does not depend on it, because the merge is keyed.
- Store.Insert: a document without a string `_id` is refused (`UnsupportedId`)
  instead of receiving a generated ObjectId. The fetched rows always carry a
  string `_id`.
- Store.Update: the `UpdateResult` is reduced to whether a document matched.
  Modified counts and upserts are not modelled.
- Store.Update: an empty `$set` is accepted as a no-op, as servers from
  MongoDB 5.0 on do. Older servers refuse it. The sync payload always has ten
  fields, so the sync never sends an empty `$set`.
- Sync.SyncStep: a raising write is assumed to raise before writing. A driver
  that fails after the server applied the write is not modelled.
- Sync.ForceRefetchAndUpdate: the fetched data is taken as already decoded
  records. The JSON-string branch and its `JSONDecodeError` path are not
  modelled. An empty JSON array answers false either way.
- Find order: `find_all` is the stored map. Cursor order is not modelled.
- Dashboard.HandleEffort: the row's "Effort" cell is an `Option`. A grid with
  no "Effort" column at all raises `KeyError`, which is not modelled.
- `EFFORT_SIZES` (app.py:14) only populates a selection widget and is not
  modelled.
- The dashboard imports `balance`, `force_refetch_and_update`,
  `comments_addition` and `update_effort` from `packages.balancer`, which is
  not part of this model. They are taken to be the versions in
  `packages/help.py`, with `update_effort` being the store's `update_effort`
  on the rebuilt id. `Sync.Balance`, `Sync.ForceRefetchAndUpdate`,
  `Sync.CommentsAdditionAppends` and `Store.UpdateEffort` model those.
- Streamlit/AgGrid rendering, CSS, analytics percentages, CSV export, session
  plumbing beyond the filter map, `cron_update.py` and `release_fetcher.py`
  are not part of this model.
- LegacyFetcher: the raw assignee object is kept as an `Option` value, and its
  string rendering in the legacy table is not modelled.

=== FILE: backoff.dfy ===
/**
 * `TicketFetch._search_issues_with_backoff`: one tracker search retried on any
 * failure, sleeping `BACKOFF_BASE_SEC * 2^k` after the k-th failed attempt,
 * and re-raising the failure of the last permitted attempt. Delays are whole
 * milliseconds; the search itself is the parameter `call`, whose answer to
 * attempt number k (0-based) is `call(k)`.
 */
module Backoff {
  import opened Wrappers

  /** BACKOFF_BASE_SEC = 1.5 s. */
  const BackoffBaseMs: nat := 1500
  /** BACKOFF_MAX_RETRIES. */
  const BackoffMaxRetries: nat := 4

  function Pow2(k: nat): nat {
    if k == 0 then 1 else 2 * Pow2(k - 1)
  }

  /** The pure policy: the pause after failed attempt `k`, before attempt `k + 1`. */
  function DelayMs(baseMs: nat, k: nat): nat {
    baseMs * Pow2(k)
  }

  /** Doubling the pending pause shifts the delay sequence by one step. */
  lemma DoubledDelays(delay: nat, n: nat)
    ensures DelayMs(delay, 0) == delay
    ensures forall k :: 0 <= k < n ==> DelayMs(delay * 2, k) == DelayMs(delay, k + 1)
  {
    forall k | 0 <= k < n
      ensures DelayMs(delay * 2, k) == DelayMs(delay, k + 1)
    {
      calc {
        DelayMs(delay * 2, k);
        (delay * 2) * Pow2(k);
        delay * (2 * Pow2(k));
      }
    }
  }

  /** What one call of the wrapper did: its outcome, how many attempts it made, and the pauses in order. */
  datatype Trace<+T, +E> = Trace(result: Result<T, E>, attempts: nat, sleeps: seq<nat>)

  /**
   * The loop from attempt number `attempt` on, with `delay` the pause that the
   * next failure would cause.
   */
  function RetryFrom<T, E>(call: nat -> Result<T, E>, attempt: nat, maxRetries: nat, delay: nat): (t: Trace<T, E>)
    requires attempt <= maxRetries
    ensures attempt < t.attempts <= maxRetries + 1
    ensures t.result == call(t.attempts - 1)
    ensures forall k :: attempt <= k < t.attempts - 1 ==> call(k).Err?
    ensures t.result.Err? ==> t.attempts == maxRetries + 1
    ensures |t.sleeps| == t.attempts - 1 - attempt
    ensures forall k :: 0 <= k < |t.sleeps| ==> t.sleeps[k] == DelayMs(delay, k)
    decreases maxRetries - attempt
  {
    match call(attempt)
    case Ok(v) => Trace(Ok(v), attempt + 1, [])
    case Err(e) =>
      if attempt >= maxRetries then Trace(Err(e), attempt + 1, [])
      else
        var t := RetryFrom(call, attempt + 1, maxRetries, delay * 2);
        DoubledDelays(delay, |t.sleeps|);
        t.(sleeps := [delay] + t.sleeps)
  }

  /**
   * The wrapper: the first successful attempt is returned; every attempt before
   * it failed; a failure is re-raised only from attempt `maxRetries`; pause k
   * is `baseMs * 2^k` and there is no pause after the final attempt.
   */
  function SearchWithBackoff<T, E>(call: nat -> Result<T, E>, maxRetries: nat, baseMs: nat): (t: Trace<T, E>)
    ensures 1 <= t.attempts <= maxRetries + 1
    ensures t.result == call(t.attempts - 1)
    ensures forall k :: 0 <= k < t.attempts - 1 ==> call(k).Err?
    ensures t.result.Err? ==> t.attempts == maxRetries + 1
    ensures |t.sleeps| == t.attempts - 1
    ensures forall k :: 0 <= k < |t.sleeps| ==> t.sleeps[k] == DelayMs(baseMs, k)
  {
    RetryFrom(call, 0, maxRetries, baseMs)
  }

  /** With the shipped tunables, a search that always fails is tried 5 times, pausing 1.5 s, 3 s, 6 s and 12 s. */
  lemma ExhaustedSearch<T, E>(call: nat -> Result<T, E>)
    requires forall k :: call(k).Err?
    ensures var t := SearchWithBackoff(call, BackoffMaxRetries, BackoffBaseMs);
      && t.attempts == BackoffMaxRetries + 1 == 5
      && t.result == call(4)
      && t.sleeps == [1500, 3000, 6000, 12000]
  {
    var t := SearchWithBackoff(call, BackoffMaxRetries, BackoffBaseMs);
    assert t.result.Err?;
    assert Pow2(1) == 2 && Pow2(2) == 4 && Pow2(3) == 8;
  }

  /** A search that succeeds at attempt `n` (0-based) stops there, after exactly `n` pauses. */
  lemma SucceedsAt<T, E>(call: nat -> Result<T, E>, maxRetries: nat, baseMs: nat, n: nat)
    requires n <= maxRetries
    requires call(n).Ok?
    requires forall k :: 0 <= k < n ==> call(k).Err?
    ensures SearchWithBackoff(call, maxRetries, baseMs).attempts == n + 1
    ensures SearchWithBackoff(call, maxRetries, baseMs).result == call(n)
  {
  }
}

=== FILE: bulk_fetch.dfy ===
/**
 * `TicketFetch._bulk_fetch_issues_by_keys`: de-duplicate the keys, cut them
 * into chunks, run one `key in (...)` search per chunk and merge every returned
 * issue into a map keyed by the issue's own key.
 *
 * The tracker is the map `tracker` from a requested key to the issue a search
 * for that key returns (a moved issue answers under its new key, so
 * `tracker[q].key` need not be `q`). Whether a chunk's search still fails after
 * its retries is the parameter `failed`.
 */
module BulkFetch {
  import opened Wrappers
  import opened Tracker
  import opened Chunking

  /** CHUNK_SIZE. */
  const ChunkSize: int := 100
  /** MAX_WORKERS. */
  const MaxWorkers: int := 6

  /** A chunk search that failed on its last permitted attempt; the whole fetch fails with it. */
  datatype FetchError = SearchFailed

  /** `[k for k in set(keys) if k]`, with first-occurrence order standing for the set's iteration order. */
  function DistinctKeys(keys: seq<string>): (r: seq<string>)
    ensures forall k :: k in r <==> k in keys && k != ""
    ensures forall i, j :: 0 <= i < j < |r| ==> r[i] != r[j]
  {
    if |keys| == 0 then []
    else
      var r := DistinctKeys(keys[..|keys| - 1]);
      var k := keys[|keys| - 1];
      assert keys == keys[..|keys| - 1] + [k];
      if k == "" || k in r then r else r + [k]
  }

  /** The issues one `key in (chunk)` search returns: one record for every key the tracker answers for. */
  function SearchChunk(chunk: seq<string>, tracker: map<string, Issue>): (r: seq<Issue>)
    ensures forall i :: i in r ==> exists q :: q in chunk && q in tracker && tracker[q] == i
    ensures forall q :: q in chunk && q in tracker ==> tracker[q] in r
  {
    if |chunk| == 0 then []
    else
      var r := (if chunk[0] in tracker then [tracker[chunk[0]]] else []) + SearchChunk(chunk[1..], tracker);
      assert forall q :: q in chunk ==> q == chunk[0] || q in chunk[1..];
      r
  }

  /** `for issue in issues: key_to_issue[issue.key] = issue`. */
  function Absorb(m: map<string, Issue>, issues: seq<Issue>): (r: map<string, Issue>)
    ensures m.Keys <= r.Keys
    ensures forall i :: i in issues ==> i.key in r
    ensures forall k :: k in r ==> (k in m && r[k] == m[k]) || r[k] in issues
    ensures forall k :: k in r ==> r[k].key == k || (k in m && r[k] == m[k])
    decreases |issues|
  {
    if |issues| == 0 then m
    else
      var m' := m[issues[0].key := issues[0]];
      var r := Absorb(m', issues[1..]);
      assert forall i :: i in issues ==> i == issues[0] || i in issues[1..];
      assert forall i :: i in issues[1..] ==> i in issues;
      r
  }

  /** The sequential path: chunks fetched and merged one after another. */
  function MergeChunks(chunks: seq<seq<string>>, tracker: map<string, Issue>, failed: seq<string> -> bool,
                       m: map<string, Issue>): (r: Result<map<string, Issue>, FetchError>)
    ensures r.Err? <==> exists c :: c in chunks && failed(c)
    decreases |chunks|
  {
    if |chunks| == 0 then Ok(m)
    else if failed(chunks[0]) then Err(SearchFailed)
    else
      var r := MergeChunks(chunks[1..], tracker, failed, Absorb(m, SearchChunk(chunks[0], tracker)));
      assert forall c :: c in chunks ==> c == chunks[0] || c in chunks[1..];
      r
  }

  /** Keys the fetch asks for. */
  ghost function KeySet(keys: seq<string>): set<string> {
    set k | k in keys && k != ""
  }

  ghost function Members(chunk: seq<string>): set<string> {
    set q | q in chunk
  }

  /** Keys named by any of the chunks. */
  ghost function KeysIn(chunks: seq<seq<string>>): set<string> {
    set c, q | c in chunks && q in c :: q
  }

  /**
   * `r` is an answer to a fetch of the keys `ks`: every entry is a record the
   * tracker returned for a requested key, filed under that record's own key,
   * and every requested key the tracker answers for has its record's key in `r`.
   */
  ghost predicate Answers(r: map<string, Issue>, ks: set<string>, tracker: map<string, Issue>) {
    && (forall k :: k in r ==> r[k].key == k && exists q :: q in ks && q in tracker && tracker[q] == r[k])
    && (forall q :: q in ks && q in tracker ==> tracker[q].key in r)
  }

  /** A search answers for an issue with one record, whichever key it was asked under. */
  ghost predicate Consistent(tracker: map<string, Issue>) {
    forall q1, q2 :: q1 in tracker && q2 in tracker && tracker[q1].key == tracker[q2].key ==> tracker[q1] == tracker[q2]
  }

  /** With a consistent tracker the answer to a fetch is unique, whatever order produced it. */
  lemma AnswersUnique(r1: map<string, Issue>, r2: map<string, Issue>, ks: set<string>, tracker: map<string, Issue>)
    requires Consistent(tracker)
    requires Answers(r1, ks, tracker) && Answers(r2, ks, tracker)
    ensures r1 == r2
  {
    forall k | k in r1 ensures k in r2 && r1[k] == r2[k] {
      var q1 :| q1 in ks && q1 in tracker && tracker[q1] == r1[k];
      assert tracker[q1].key in r2;
      var q2 :| q2 in ks && q2 in tracker && tracker[q2] == r2[k];
    }
    forall k | k in r2 ensures k in r1 {
      var q2 :| q2 in ks && q2 in tracker && tracker[q2] == r2[k];
      assert tracker[q2].key in r1;
    }
  }

  lemma AbsorbChunk(m: map<string, Issue>, ks: set<string>, chunk: seq<string>, tracker: map<string, Issue>)
    requires Answers(m, ks, tracker)
    ensures Answers(Absorb(m, SearchChunk(chunk, tracker)), ks + Members(chunk), tracker)
  {
    var issues := SearchChunk(chunk, tracker);
    var r := Absorb(m, issues);
    forall k | k in r
      ensures r[k].key == k && exists q :: q in ks + Members(chunk) && q in tracker && tracker[q] == r[k]
    {
      if !(k in m && r[k] == m[k]) {
        assert r[k] in issues;
        var q :| q in chunk && q in tracker && tracker[q] == r[k];
        assert q in Members(chunk);
      }
    }
    forall q | q in ks + Members(chunk) && q in tracker ensures tracker[q].key in r {
      if q in Members(chunk) {
        assert tracker[q] in issues;
      }
    }
  }

  lemma KeysInCons(chunks: seq<seq<string>>)
    requires |chunks| > 0
    ensures KeysIn(chunks) == Members(chunks[0]) + KeysIn(chunks[1..])
  {
    assert forall x :: x in chunks <==> x == chunks[0] || x in chunks[1..];
  }

  /** A merge that succeeds extends an answer for `ks` to an answer for `ks` plus every chunk's keys. */
  lemma {:induction false} MergeAnswers(chunks: seq<seq<string>>, tracker: map<string, Issue>, failed: seq<string> -> bool,
                                        m: map<string, Issue>, ks: set<string>)
    requires Answers(m, ks, tracker)
    requires MergeChunks(chunks, tracker, failed, m).Ok?
    ensures Answers(MergeChunks(chunks, tracker, failed, m).value, ks + KeysIn(chunks), tracker)
    decreases |chunks|
  {
    if |chunks| == 0 {
      assert KeysIn(chunks) == {};
      assert ks + KeysIn(chunks) == ks;
    } else {
      var c := chunks[0];
      var m' := Absorb(m, SearchChunk(c, tracker));
      AbsorbChunk(m, ks, c, tracker);
      MergeAnswers(chunks[1..], tracker, failed, m', ks + Members(c));
      KeysInCons(chunks);
      assert ks + Members(c) + KeysIn(chunks[1..]) == ks + KeysIn(chunks);
    }
  }

  /** The fetch, taking the sequential path (the parallel path gives the same map: `ParallelMergeAgrees`). */
  function BulkFetchIssues(keys: seq<string>, chunkSize: int, tracker: map<string, Issue>,
                           failed: seq<string> -> bool): (r: Result<map<string, Issue>, FetchError>)
    ensures KeySet(keys) == {} ==> r == Ok(map[])
    ensures r.Err? <==> exists c :: c in Chunked(DistinctKeys(keys), chunkSize) && failed(c)
    ensures r.Ok? ==> Answers(r.value, KeySet(keys), tracker)
  {
    var ks := DistinctKeys(keys);
    if |ks| == 0 then
      assert KeySet(keys) == {} by {
        forall k | k in keys && k != "" ensures k in ks { }
      }
      Ok(map[])
    else
      assert ks[0] in ks;
      assert ks[0] in KeySet(keys);
      var chunks := Chunked(ks, chunkSize);
      var r := MergeChunks(chunks, tracker, failed, map[]);
      assert r.Ok? ==> Answers(r.value, KeySet(keys), tracker) by {
        if r.Ok? {
          assert Answers(map[], {}, tracker);
          MergeAnswers(chunks, tracker, failed, map[], {});
          FlattenMembers(chunks);
          assert {} + KeysIn(chunks) == KeySet(keys);
        }
      }
      r
  }

  lemma {:induction false} FlattenMembers(chunks: seq<seq<string>>)
    ensures forall q :: q in Flatten(chunks) <==> q in KeysIn(chunks)
  {
    if |chunks| > 0 {
      FlattenMembers(chunks[1..]);
      assert forall c :: c in chunks <==> c == chunks[0] || c in chunks[1..];
    }
  }

  /**
   * The parallel path merges the same chunks in completion order; with a
   * consistent tracker any completion order gives the sequential result.
   */
  lemma ParallelMergeAgrees(completion: seq<seq<string>>, chunks: seq<seq<string>>, tracker: map<string, Issue>,
                            failed: seq<string> -> bool)
    requires multiset(completion) == multiset(chunks)
    requires Consistent(tracker)
    ensures MergeChunks(completion, tracker, failed, map[]) == MergeChunks(chunks, tracker, failed, map[])
  {
    assert forall c :: c in completion <==> c in chunks by {
      forall c ensures c in completion <==> c in chunks {
        assert c in completion <==> c in multiset(completion);
        assert c in chunks <==> c in multiset(chunks);
      }
    }
    assert KeysIn(completion) == KeysIn(chunks) by {
      forall q ensures q in KeysIn(completion) <==> q in KeysIn(chunks) {
        if q in KeysIn(completion) {
          var c :| c in completion && q in c;
          assert c in chunks;
        }
        if q in KeysIn(chunks) {
          var c :| c in chunks && q in c;
          assert c in completion;
        }
      }
    }
    var r1 := MergeChunks(completion, tracker, failed, map[]);
    var r2 := MergeChunks(chunks, tracker, failed, map[]);
    assert r1.Err? <==> r2.Err?;
    if r1.Ok? && r2.Ok? {
      assert Answers(map[], {}, tracker);
      MergeAnswers(completion, tracker, failed, map[], {});
      MergeAnswers(chunks, tracker, failed, map[], {});
      assert {} + KeysIn(chunks) == KeysIn(chunks);
      AnswersUnique(r1.value, r2.value, KeysIn(chunks), tracker);
    } else {
      assert r1.Err? && r2.Err?;
      assert r1.error.SearchFailed? && r2.error.SearchFailed?;
    }
  }

  /** Five keys in chunks of two: three searches, covering every key once. */
  lemma FiveKeysThreeSearches()
    ensures Chunked(DistinctKeys(["A", "B", "C", "D", "E"]), 2) == [["A", "B"], ["C", "D"], ["E"]]
  {
    var ks: seq<string> := ["A", "B", "C", "D", "E"];
    DistinctKeysOfDistinct(ks);
    assert ks[2..] == ["C", "D", "E"] && ks[..2] == ["A", "B"];
    assert Chunked(["E"], 2) == [["E"]];
    assert ["C", "D", "E"][2..] == ["E"] && ["C", "D", "E"][..2] == ["C", "D"];
    assert Chunked(["C", "D", "E"], 2) == [["C", "D"], ["E"]];
  }

  /** Keys that are already distinct and non-empty come through de-duplication unchanged. */
  lemma {:induction false} DistinctKeysOfDistinct(keys: seq<string>)
    requires forall i :: 0 <= i < |keys| ==> keys[i] != ""
    requires forall i, j :: 0 <= i < j < |keys| ==> keys[i] != keys[j]
    ensures DistinctKeys(keys) == keys
  {
    if |keys| > 0 {
      var init := keys[..|keys| - 1];
      DistinctKeysOfDistinct(init);
      assert keys[|keys| - 1] !in init;
      assert init + [keys[|keys| - 1]] == keys;
    }
  }
}

=== FILE: chunking.dfy ===
/**
 * `TicketFetch._chunked`: the key list is cut into consecutive chunks of a
 * fixed size; the last chunk holds what is left over.
 */
module Chunking {

  function Flatten<T>(xss: seq<seq<T>>): seq<T> {
    if |xss| == 0 then [] else xss[0] + Flatten(xss[1..])
  }

  lemma {:induction false} FlattenAppend<T>(xss: seq<seq<T>>, ys: seq<T>)
    ensures Flatten(xss + [ys]) == Flatten(xss) + ys
  {
    if |xss| == 0 {
      assert xss + [ys] == [ys];
    } else {
      assert (xss + [ys])[1..] == xss[1..] + [ys];
      FlattenAppend(xss[1..], ys);
    }
  }

  /**
   * The generator closes a chunk as soon as `len(chunk) >= size`, so a size
   * below 1 behaves like 1: every item becomes a chunk of its own.
   */
  function ChunkWidth(size: int): nat {
    if size < 1 then 1 else size
  }

  /** `r` cuts `xs` into non-empty chunks, all of width `w` except a shorter or equal last one. */
  ghost predicate IsChunking<T>(r: seq<seq<T>>, xs: seq<T>, w: nat) {
    && Flatten(r) == xs
    && (forall i :: 0 <= i < |r| ==> 0 < |r[i]| <= w)
    && (forall i :: 0 <= i < |r| - 1 ==> |r[i]| == w)
  }

  /** The list `list(_chunked(xs, size))`. */
  function Chunked<T>(xs: seq<T>, size: int): (r: seq<seq<T>>)
    ensures IsChunking(r, xs, ChunkWidth(size))
    ensures |r| == (|xs| + ChunkWidth(size) - 1) / ChunkWidth(size)
    decreases |xs|
  {
    var w := ChunkWidth(size);
    if |xs| == 0 then
      assert (w - 1) / w == 0 by { SmallDiv(w - 1, w); }
      []
    else if |xs| <= w then
      assert (|xs| + w - 1) / w == 1 by { SmallDiv(|xs| - 1, w); DivShift(|xs| - 1, w); }
      [xs]
    else
      var rest := Chunked(xs[w..], size);
      ConsChunk(xs[..w], rest, xs[w..], w);
      assert xs[..w] + xs[w..] == xs;
      [xs[..w]] + rest
  }

  /** A full chunk in front of a chunking of the rest is a chunking of the whole, one chunk longer. */
  lemma ConsChunk<T>(head: seq<T>, rest: seq<seq<T>>, tail: seq<T>, w: nat)
    requires w > 0 && |head| == w && |tail| > 0
    requires IsChunking(rest, tail, w) && |rest| == (|tail| + w - 1) / w
    ensures IsChunking([head] + rest, head + tail, w)
    ensures |[head] + rest| == (|head + tail| + w - 1) / w
  {
    var r := [head] + rest;
    assert r[1..] == rest;
    assert Flatten(r) == head + tail;
    forall i | 0 <= i < |r| ensures 0 < |r[i]| <= w {
      if i > 0 { assert r[i] == rest[i - 1]; }
    }
    forall i | 0 <= i < |r| - 1 ensures |r[i]| == w {
      if i > 0 { assert r[i] == rest[i - 1]; }
    }
    assert |head + tail| + w - 1 == (|tail| + w - 1) + w;
    DivShift(|tail| + w - 1, w);
  }

  lemma SmallDiv(a: nat, w: nat)
    requires a < w
    ensures a / w == 0
  {
  }

  lemma DivShift(a: nat, w: nat)
    requires w > 0
    ensures (a + w) / w == a / w + 1
  {
    var q, r := a / w, a % w;
    assert a == q * w + r;
    assert a + w == (q + 1) * w + r;
    var q', r' := (a + w) / w, (a + w) % w;
    assert a + w == q' * w + r';
    assert (q' - q - 1) * w == r - r';
    MulSign(q' - q - 1, w);
  }

  lemma MulSign(d: int, w: int)
    requires w > 0
    ensures d >= 1 ==> d * w >= w
    ensures d <= -1 ==> d * w <= -w
  {
  }

  /** A chunking of `xs` at width `w` is unique: the contract of `Chunked` pins its result down. */
  lemma {:induction false} ChunkingUnique<T>(r1: seq<seq<T>>, r2: seq<seq<T>>, xs: seq<T>, w: nat)
    requires IsChunking(r1, xs, w) && IsChunking(r2, xs, w)
    ensures r1 == r2
    decreases |xs|
  {
    EmptyChunking(r1, xs, w);
    EmptyChunking(r2, xs, w);
    if |xs| > 0 {
      FirstChunk(r1, xs, w);
      FirstChunk(r2, xs, w);
      assert r1[0] == r2[0];
      var rest := xs[|r1[0]|..];
      assert Flatten(r1[1..]) == rest && Flatten(r2[1..]) == rest;
      assert IsChunking(r1[1..], rest, w);
      assert IsChunking(r2[1..], rest, w);
      ChunkingUnique(r1[1..], r2[1..], rest, w);
      assert r1 == [r1[0]] + r1[1..] && r2 == [r2[0]] + r2[1..];
    }
  }

  lemma EmptyChunking<T>(r: seq<seq<T>>, xs: seq<T>, w: nat)
    requires IsChunking(r, xs, w)
    ensures |r| == 0 <==> |xs| == 0
  {
    if |r| > 0 {
      assert xs == r[0] + Flatten(r[1..]);
    }
  }

  /** The first chunk is the whole input if it fits, else its first `w` items. */
  lemma FirstChunk<T>(r: seq<seq<T>>, xs: seq<T>, w: nat)
    requires IsChunking(r, xs, w) && |r| > 0
    ensures r[0] == (if |xs| <= w then xs else xs[..w])
    ensures |r| == 1 <==> |xs| <= w
  {
    assert xs == r[0] + Flatten(r[1..]);
    if |r| > 1 {
      assert |Flatten(r[1..])| >= |r[1]| > 0;
    }
  }

  /** The generator itself: items accumulate in `chunk`, which is yielded once full, and once more at the end if non-empty. */
  method ChunkStream<T>(xs: seq<T>, size: int) returns (out: seq<seq<T>>)
    ensures out == Chunked(xs, size)
  {
    var w := ChunkWidth(size);
    out := [];
    var chunk: seq<T> := [];
    var i := 0;
    while i < |xs|
      invariant 0 <= i <= |xs|
      invariant Flatten(out) + chunk == xs[..i]
      invariant |chunk| < w
      invariant forall k :: 0 <= k < |out| ==> |out[k]| == w
    {
      chunk := chunk + [xs[i]];
      i := i + 1;
      if |chunk| >= size {
        FlattenAppend(out, chunk);
        out := out + [chunk];
        chunk := [];
      }
    }
    assert xs[..i] == xs;
    if |chunk| > 0 {
      FlattenAppend(out, chunk);
      out := out + [chunk];
    }
    ChunkingUnique(out, Chunked(xs, size), xs, w);
  }
}

=== FILE: classifier.dfy ===
/**
 * The optimized fetcher's classification and row building
 * (`ticket_fetcher_optimized.py`): the commitment filter, the candidate-link
 * resolver, the QA-task qualification filter, the row builder with its
 * first-match Auto/TMS discovery, and the fan-out loop of `fetch_tickets`.
 */
module Classifier {
  import opened Wrappers
  import opened Text
  import opened Tracker
  import opened BulkFetch

  const NA: string := "NA"
  const TriageSentinel: string := "73317"
  const ComprisedOfTask: string := "Comprised of Task"
  const TaskType: string := "Task"
  const Rejected: string := "Rejected"

  /** One normalised row; the store document is built from it field by field. */
  datatype Row = Row(
    id: string,
    featureStatus: string,
    featureSummary: string,
    qaTask: string,
    qaStatus: string,
    qaAssignee: string,
    qaLabels: string,
    autoTask: string,
    autoStatus: string,
    tmsTask: string,
    tmsStatus: string,
    comments: seq<string>)

  // ---------------------------------------------------------------------------
  // Commitment filter (`get_qa_committed_tasks`)
  // ---------------------------------------------------------------------------

  /** A missing description is read as '' and never matches. */
  predicate IsQaCommitted(f: Issue) {
    f.description.Some? && MatchesCommitMarker(f.description.value)
  }

  function QaCommittedTasks(features: seq<Issue>): (r: seq<Issue>)
    ensures forall f :: f in r <==> f in features && IsQaCommitted(f)
    ensures |r| <= |features|
  {
    if |features| == 0 then []
    else
      var rest := QaCommittedTasks(features[1..]);
      assert forall f :: f in features <==> f == features[0] || f in features[1..];
      if IsQaCommitted(features[0]) then [features[0]] + rest else rest
  }

  /** The filter keeps the features' order: it distributes over concatenation, one feature at a time. */
  lemma {:induction false} QaCommittedTasksAppend(a: seq<Issue>, b: seq<Issue>)
    ensures QaCommittedTasks(a + b) == QaCommittedTasks(a) + QaCommittedTasks(b)
    ensures QaCommittedTasks([]) == []
    ensures forall f :: QaCommittedTasks([f]) == if IsQaCommitted(f) then [f] else []
    decreases |a|
  {
    if |a| > 0 {
      assert (a + b)[1..] == a[1..] + b;
      QaCommittedTasksAppend(a[1..], b);
    } else {
      assert a + b == b;
    }
    forall f ensures QaCommittedTasks([f]) == if IsQaCommitted(f) then [f] else [] {
      assert [f][1..] == [];
    }
  }

  /** An exact occurrence of a pattern that has no upper-case letters is also a case-insensitive one. */
  lemma LowerLiteralMatches(s: string, i: nat, pat: string)
    requires i + |pat| <= |s| && s[i..i + |pat|] == pat
    requires forall k :: 0 <= k < |pat| ==> !('A' <= pat[k] <= 'Z')
    ensures CiMatchAt(s, i, pat)
  {
    forall k | 0 <= k < |pat| ensures LowerChar(s[i + k]) == pat[k] {
      assert s[i + k] == s[i..i + |pat|][k];
    }
  }

  /** The marker may be separated from "QA" by any text on the same line. */
  lemma CommitMarkerExample()
    ensures MatchesCommitMarker("#teams_committed later discussion QA rollout")
  {
    var s := "#teams_committed later discussion QA rollout";
    assert s[..16] == CommitTag;
    LowerLiteralMatches(s, 0, CommitTag);
    assert CiMatchAt(s, 34, QaTag) by {
      assert s[34] == 'Q' && s[35] == 'A';
    }
    assert NoNewline(s, 16, 34) by {
      assert forall k :: 16 <= k < 34 ==> s[k] in " laterdiscuon";
    }
    assert MarkerSpanAt(s, 0, 34);
  }

  // ---------------------------------------------------------------------------
  // Link resolver (`_collect_candidate_linked_keys`)
  // ---------------------------------------------------------------------------

  /** `getattr(link, 'inwardIssue', None) or getattr(link, 'outwardIssue', None)`. */
  function LinkedSide(l: Link): Option<LinkedIssue> {
    if l.inward.Some? then l.inward else l.outward
  }

  /** The key a link contributes: present only for a "Comprised of Task" link to an issue with a key. */
  function CandidateKeyOf(l: Link): (r: Option<string>)
    ensures r.Some? <==> l.inwardLabel == Some(ComprisedOfTask) && LinkedSide(l).Some? && Truthy(LinkedSide(l).value.key)
    ensures r.Some? ==> r == LinkedSide(l).value.key
  {
    var side := LinkedSide(l);
    if side.None? then None
    else if l.inwardLabel == Some(ComprisedOfTask) && Truthy(side.value.key) then side.value.key
    else None
  }

  function CandidateLinkedKeys(links: seq<Link>): (r: seq<string>)
    ensures |r| <= |links|
    ensures forall k :: k in r <==> exists l :: l in links && CandidateKeyOf(l) == Some(k)
    ensures forall k :: k in r ==> k != ""
  {
    if |links| == 0 then []
    else
      var rest := CandidateLinkedKeys(links[1..]);
      assert forall l :: l in links <==> l == links[0] || l in links[1..];
      match CandidateKeyOf(links[0])
      case Some(k) => [k] + rest
      case None => rest
  }

  /**
   * The keys come in link order, duplicates kept: the collector distributes
   * over concatenation.
   */
  lemma {:induction false} CandidateLinkedKeysAppend(a: seq<Link>, b: seq<Link>)
    ensures CandidateLinkedKeys(a + b) == CandidateLinkedKeys(a) + CandidateLinkedKeys(b)
    decreases |a|
  {
    if |a| > 0 {
      assert (a + b)[0] == a[0];
      assert (a + b)[1..] == a[1..] + b;
      CandidateLinkedKeysAppend(a[1..], b);
    } else {
      assert a + b == b;
    }
  }

  /** A single link contributes exactly the key `CandidateKeyOf` names, or nothing. */
  lemma CandidateLinkedKeysOne(l: Link)
    ensures CandidateLinkedKeys([l]) == if CandidateKeyOf(l).Some? then [CandidateKeyOf(l).value] else []
  {
    assert [l][1..] == [];
  }

  // ---------------------------------------------------------------------------
  // QA-task qualification (`_qa_filter`)
  // ---------------------------------------------------------------------------

  /** `str()` of one triage value. */
  function Rendered(t: TriageItem): string {
    match t
    case TriageText(s) => s
    case TriageOption(s) => s
  }

  predicate TriageOk(t: Triage) {
    match t
    case NoTriage => false
    case TriageList(items) => |items| > 0 && Rendered(items[0]) == TriageSentinel
    case TriageString(s) => s == TriageSentinel
  }

  /** The status name defaults to '' here, so a missing status is not "Rejected". */
  predicate QaFilter(i: Issue) {
    i.issuetype == Some(TaskType) && TriageOk(i.triage) && i.status.GetOr("") != Rejected
  }

  /**
   * Fail-closed: a task without a type or without a triage value never
   * qualifies; a missing status does not disqualify; the sentinel is accepted
   * as a plain string, as the first list entry, or as an option rendering it.
   */
  lemma QaFilterCases(i: Issue)
    ensures QaFilter(i) ==> i.issuetype == Some(TaskType) && i.triage != NoTriage && i.status != Some(Rejected)
    ensures i.issuetype == Some(TaskType) && i.status != Some(Rejected) ==>
      (QaFilter(i) <==> i.triage == TriageString(TriageSentinel)
                        || (i.triage.TriageList? && |i.triage.items| > 0 && Rendered(i.triage.items[0]) == TriageSentinel))
    ensures i.issuetype != Some(TaskType) ==> !QaFilter(i)
    ensures i.triage == NoTriage || i.triage == TriageList([]) ==> !QaFilter(i)
    ensures i.status == Some(Rejected) ==> !QaFilter(i)
    ensures i.issuetype == Some(TaskType) && i.status.None? ==>
      && (i.triage == TriageString(TriageSentinel) ==> QaFilter(i))
      && (i.triage.TriageList? && |i.triage.items| > 0 && i.triage.items[0] == TriageOption(TriageSentinel) ==> QaFilter(i))
  {
  }

  // ---------------------------------------------------------------------------
  // Auto/TMS discovery and the row builder (`get_task_details`)
  // ---------------------------------------------------------------------------

  /** Where a linked Auto or TMS task is recorded: its key and status name, "NA" until found. */
  datatype Slot = Slot(task: string, status: string)

  const EmptySlot: Slot := Slot(NA, NA)

  datatype SubTasks = SubTasks(auto: Slot, tms: Slot)

  /** A Task-typed linked issue whose summary mentions `pat`, ignoring case. */
  predicate Hits(li: LinkedIssue, pat: string) {
    Truthy(li.summary) && ContainsCi(li.summary.value, pat)
  }

  /** One linked issue offered to one slot: it fills the slot only while the slot's task is "NA". */
  function SlotStep(s: Slot, li: LinkedIssue, pat: string): Slot {
    if Hits(li, pat) && s.task == NA then Slot(OrNA(li.key), OrNA(li.status)) else s
  }

  function SlotScan(s: Slot, cands: seq<LinkedIssue>, pat: string): Slot
    decreases |cands|
  {
    if |cands| == 0 then s else SlotScan(SlotStep(s, cands[0], pat), cands[1..], pat)
  }

  predicate IsTask(li: LinkedIssue) {
    li.issuetype == Some(TaskType)
  }

  /** The Task-typed sides of one link, inward side first. */
  function SidesOf(l: Link): seq<LinkedIssue> {
    (if l.inward.Some? && IsTask(l.inward.value) then [l.inward.value] else [])
    + (if l.outward.Some? && IsTask(l.outward.value) then [l.outward.value] else [])
  }

  /** Task-typed issues on the sides of the links, in scan order. */
  function TaskSides(links: seq<Link>): seq<LinkedIssue> {
    if |links| == 0 then [] else SidesOf(links[0]) + TaskSides(links[1..])
  }

  predicate BothFound(st: SubTasks) {
    st.auto.task != NA && st.tms.task != NA
  }

  /** One side of one link; `stop` is the `break` once both slots are filled. */
  function ScanSide(st: SubTasks, side: Option<LinkedIssue>): (SubTasks, bool) {
    if side.None? || !IsTask(side.value) then (st, false)
    else
      var st' := SubTasks(SlotStep(st.auto, side.value, "auto"), SlotStep(st.tms, side.value, "tms"));
      (st', BothFound(st'))
  }

  function ScanLink(st: SubTasks, l: Link): SubTasks {
    var (a, stop) := ScanSide(st, l.inward);
    if stop then a else ScanSide(a, l.outward).0
  }

  /** The nested loop over the QA task's links, as written. */
  function ScanLinks(st: SubTasks, links: seq<Link>): SubTasks
    decreases |links|
  {
    if |links| == 0 then st else ScanLinks(ScanLink(st, links[0]), links[1..])
  }

  /** `displayName or name or accountId`, then `or "NA"`; an unassigned task keeps "NA". */
  function AssigneeName(a: Option<Assignee>): string {
    if a.None? then NA
    else if Truthy(a.value.displayName) then a.value.displayName.value
    else if Truthy(a.value.name) then a.value.name.value
    else OrNA(a.value.accountId)
  }

  function RowId(f: Issue, qa: Option<Issue>): string {
    if qa.Some? then f.key + "|" + qa.value.key else f.key
  }

  function TaskDetails(f: Issue, qa: Option<Issue>): (r: Row)
    ensures r.comments == []
  {
    var base := Row(RowId(f, qa), StatusName(f.status), f.summary.GetOr(NA),
                    NA, NA, NA, NA, NA, NA, NA, NA, []);
    match qa
    case None => base
    case Some(q) =>
      var found := ScanLinks(SubTasks(EmptySlot, EmptySlot), q.links);
      base.(qaTask := q.key,
            qaStatus := StatusName(q.status),
            qaAssignee := AssigneeName(q.assignee),
            qaLabels := if |q.labels| > 0 then JoinComma(q.labels) else NA,
            autoTask := found.auto.task, autoStatus := found.auto.status,
            tmsTask := found.tms.task, tmsStatus := found.tms.status)
  }

  /** A row without a QA task: identity is the feature key and every QA/Auto/TMS field is "NA". */
  lemma RowWithoutQaTask(f: Issue)
    ensures var r := TaskDetails(f, None);
      && r.id == f.key
      && r.qaTask == NA && r.qaStatus == NA && r.qaAssignee == NA && r.qaLabels == NA
      && r.autoTask == NA && r.autoStatus == NA && r.tmsTask == NA && r.tmsStatus == NA
      && r.comments == []
  {
  }

  /** A row with a QA task: identity `feature|qa`, QA key copied, and the feature is recoverable from the identity. */
  lemma RowWithQaTask(f: Issue, q: Issue)
    requires '|' !in f.key
    ensures var r := TaskDetails(f, Some(q));
      && r.id == f.key + "|" + q.key
      && r.qaTask == q.key
      && FirstSegment(r.id) == f.key
      && r.comments == []
  {
    FirstSegmentOfJoin(f.key, q.key);
  }

  /** Once a slot holds a task, later linked issues never change it. */
  lemma {:induction false} SlotScanKeeps(s: Slot, cands: seq<LinkedIssue>, pat: string)
    requires s.task != NA
    ensures SlotScan(s, cands, pat) == s
    decreases |cands|
  {
    if |cands| > 0 {
      SlotScanKeeps(SlotStep(s, cands[0], pat), cands[1..], pat);
    }
  }

  /** A candidate that would fill a slot for good: it matches and has a real key. */
  predicate Fills(li: LinkedIssue, pat: string) {
    Hits(li, pat) && OrNA(li.key) != NA
  }

  /**
   * First match wins: the slot ends up holding the first candidate that
   * matches with a real key; candidates before it leave the task "NA".
   */
  lemma {:induction false} SlotScanFirstMatch(s: Slot, cands: seq<LinkedIssue>, pat: string, i: nat)
    requires s.task == NA
    requires i < |cands| && Fills(cands[i], pat)
    requires forall j :: 0 <= j < i ==> !Fills(cands[j], pat)
    ensures SlotScan(s, cands, pat) == Slot(cands[i].key.value, OrNA(cands[i].status))
    decreases |cands|
  {
    var s' := SlotStep(s, cands[0], pat);
    if i == 0 {
      SlotScanKeeps(s', cands[1..], pat);
    } else {
      assert !Fills(cands[0], pat);
      SlotScanFirstMatch(s', cands[1..], pat, i - 1);
    }
  }

  /** With no matching candidate at all, the slot stays empty. */
  lemma {:induction false} SlotScanNoMatch(s: Slot, cands: seq<LinkedIssue>, pat: string)
    requires forall j :: 0 <= j < |cands| ==> !Hits(cands[j], pat)
    ensures SlotScan(s, cands, pat) == s
    decreases |cands|
  {
    if |cands| > 0 {
      SlotScanNoMatch(s, cands[1..], pat);
    }
  }

  lemma {:induction false} SlotScanAppend(s: Slot, a: seq<LinkedIssue>, b: seq<LinkedIssue>, pat: string)
    ensures SlotScan(s, a + b, pat) == SlotScan(SlotScan(s, a, pat), b, pat)
    decreases |a|
  {
    if |a| > 0 {
      assert (a + b)[1..] == a[1..] + b;
      SlotScanAppend(SlotStep(s, a[0], pat), a[1..], b, pat);
    } else {
      assert a + b == b;
    }
  }

  /** Scanning a link with the early `break` equals offering its Task sides to both slots. */
  lemma ScanLinkIsSlotScans(st: SubTasks, l: Link)
    ensures var sides := TaskSides([l]);
      ScanLink(st, l) == SubTasks(SlotScan(st.auto, sides, "auto"), SlotScan(st.tms, sides, "tms"))
  {
    var sides := TaskSides([l]);
    assert TaskSides([l][1..]) == [];
    var inw := if l.inward.Some? && IsTask(l.inward.value) then [l.inward.value] else [];
    var outw := if l.outward.Some? && IsTask(l.outward.value) then [l.outward.value] else [];
    assert sides == inw + outw;
    SlotScanAppend(st.auto, inw, outw, "auto");
    SlotScanAppend(st.tms, inw, outw, "tms");
    var (a, stop) := ScanSide(st, l.inward);
    if stop {
      SlotScanKeeps(a.auto, outw, "auto");
      SlotScanKeeps(a.tms, outw, "tms");
    }
  }

  lemma TaskSidesCons(links: seq<Link>)
    requires |links| > 0
    ensures TaskSides(links) == TaskSides([links[0]]) + TaskSides(links[1..])
  {
    var l := links[0];
    assert [l][1..] == [];
    assert TaskSides([l]) == SidesOf(l) + TaskSides([]);
    assert SidesOf(l) + [] == SidesOf(l);
  }

  /** The early `break` changes nothing: the scan equals independent first-match scans of all Task sides. */
  lemma {:induction false} ScanLinksIsSlotScans(st: SubTasks, links: seq<Link>)
    ensures var sides := TaskSides(links);
      ScanLinks(st, links) == SubTasks(SlotScan(st.auto, sides, "auto"), SlotScan(st.tms, sides, "tms"))
    decreases |links|
  {
    if |links| > 0 {
      var st' := ScanLink(st, links[0]);
      var head := TaskSides([links[0]]);
      var tail := TaskSides(links[1..]);
      ScanLinkIsSlotScans(st, links[0]);
      ScanLinksIsSlotScans(st', links[1..]);
      TaskSidesCons(links);
      SlotScanAppend(st.auto, head, tail, "auto");
      SlotScanAppend(st.tms, head, tail, "tms");
      assert ScanLinks(st, links) == ScanLinks(st', links[1..]);
    }
  }

  /**
   * Auto discovery in a built row: the first Task-typed linked issue whose
   * summary contains "auto" (ignoring case) and that has a real key sets
   * Auto_task and Auto_status; later matches never overwrite it.
   */
  lemma AutoFirstMatch(f: Issue, q: Issue, i: nat)
    requires var sides := TaskSides(q.links);
      && i < |sides| && Fills(sides[i], "auto")
      && forall j :: 0 <= j < i ==> !Fills(sides[j], "auto")
    ensures TaskDetails(f, Some(q)).autoTask == TaskSides(q.links)[i].key.value
    ensures TaskDetails(f, Some(q)).autoStatus == OrNA(TaskSides(q.links)[i].status)
  {
    ScanLinksIsSlotScans(SubTasks(EmptySlot, EmptySlot), q.links);
    SlotScanFirstMatch(EmptySlot, TaskSides(q.links), "auto", i);
  }

  /** TMS discovery: the same first-match rule, for summaries containing "tms". */
  lemma TmsFirstMatch(f: Issue, q: Issue, i: nat)
    requires var sides := TaskSides(q.links);
      && i < |sides| && Fills(sides[i], "tms")
      && forall j :: 0 <= j < i ==> !Fills(sides[j], "tms")
    ensures TaskDetails(f, Some(q)).tmsTask == TaskSides(q.links)[i].key.value
    ensures TaskDetails(f, Some(q)).tmsStatus == OrNA(TaskSides(q.links)[i].status)
  {
    ScanLinksIsSlotScans(SubTasks(EmptySlot, EmptySlot), q.links);
    SlotScanFirstMatch(EmptySlot, TaskSides(q.links), "tms", i);
  }

  /** Only Task-typed linked issues count: with no matching Task side, Auto and TMS stay "NA". */
  lemma NoSubTaskMatch(f: Issue, q: Issue)
    requires forall li :: li in TaskSides(q.links) ==> !Hits(li, "auto") && !Hits(li, "tms")
    ensures TaskDetails(f, Some(q)).autoTask == NA && TaskDetails(f, Some(q)).autoStatus == NA
    ensures TaskDetails(f, Some(q)).tmsTask == NA && TaskDetails(f, Some(q)).tmsStatus == NA
  {
    var sides := TaskSides(q.links);
    ScanLinksIsSlotScans(SubTasks(EmptySlot, EmptySlot), q.links);
    assert forall j :: 0 <= j < |sides| ==> sides[j] in sides;
    SlotScanNoMatch(EmptySlot, sides, "auto");
    SlotScanNoMatch(EmptySlot, sides, "tms");
  }

  // ---------------------------------------------------------------------------
  // Fan-out (`fetch_tickets`, steps 3 to 5)
  // ---------------------------------------------------------------------------

  /** `feature_to_linked_keys`: a later feature with the same key replaces an earlier one's entry. */
  function FeatureToKeys(features: seq<Issue>): (r: map<string, seq<string>>)
    ensures forall f :: f in features ==> f.key in r
    ensures forall k :: k in r ==> exists f :: f in features && f.key == k && r[k] == CandidateLinkedKeys(f.links)
    decreases |features|
  {
    if |features| == 0 then map[]
    else
      var last := features[|features| - 1];
      var init := features[..|features| - 1];
      SplitLast(features);
      FeatureToKeys(init)[last.key := CandidateLinkedKeys(last.links)]
  }

  lemma SplitLast<T>(xs: seq<T>)
    requires |xs| > 0
    ensures forall x :: x in xs <==> x == xs[|xs| - 1] || x in xs[..|xs| - 1]
  {
    assert xs == xs[..|xs| - 1] + [xs[|xs| - 1]];
  }

  /** With distinct feature keys every feature keeps its own candidate keys. */
  lemma FeatureToKeysOwn(features: seq<Issue>, f: Issue)
    requires f in features
    requires forall i, j :: 0 <= i < j < |features| ==> features[i].key != features[j].key
    ensures FeatureToKeys(features)[f.key] == CandidateLinkedKeys(f.links)
  {
    var m := FeatureToKeys(features);
    var g :| g in features && g.key == f.key && m[f.key] == CandidateLinkedKeys(g.links);
    var i :| 0 <= i < |features| && features[i] == f;
    var j :| 0 <= j < |features| && features[j] == g;
    assert i == j;
  }

  /** The union of all candidate keys, in feature order (standing for the set `all_linked_keys`). */
  function AllLinkedKeys(features: seq<Issue>): (r: seq<string>)
    ensures forall f, k :: f in features && k in CandidateLinkedKeys(f.links) ==> k in r
    ensures forall k :: k in r ==> exists f :: f in features && k in CandidateLinkedKeys(f.links)
  {
    if |features| == 0 then []
    else
      var r := CandidateLinkedKeys(features[0].links) + AllLinkedKeys(features[1..]);
      assert forall f :: f in features ==> f == features[0] || f in features[1..];
      r
  }

  /** The linked issues that qualify as QA tasks, in link order. */
  /** What one candidate key contributes: its fetched issue, if it was fetched and passes `_qa_filter`. */
  function QualifyingAt(k: string, linked: map<string, Issue>): seq<Issue> {
    if k in linked && QaFilter(linked[k]) then [linked[k]] else []
  }

  function QualifyingIssues(keys: seq<string>, linked: map<string, Issue>): (r: seq<Issue>)
    ensures forall q :: q in r ==> QaFilter(q) && exists k :: k in keys && k in linked && linked[k] == q
    ensures forall k :: k in keys && k in linked && QaFilter(linked[k]) ==> linked[k] in r
    ensures |r| <= |keys|
  {
    if |keys| == 0 then []
    else
      var rest := QualifyingIssues(keys[1..], linked);
      var k := keys[0];
      assert forall k' :: k' in keys <==> k' == k || k' in keys[1..];
      QualifyingAt(k, linked) + rest
  }

  /** Qualifying issues keep the link order: the filter distributes over concatenation of key lists. */
  lemma {:induction false} QualifyingIssuesAppend(a: seq<string>, b: seq<string>, linked: map<string, Issue>)
    ensures QualifyingIssues(a + b, linked) == QualifyingIssues(a, linked) + QualifyingIssues(b, linked)
    decreases |a|
  {
    if |a| > 0 {
      assert (a + b)[0] == a[0] && (a + b)[1..] == a[1..] + b;
      QualifyingIssuesAppend(a[1..], b, linked);
    } else {
      assert a + b == b;
    }
  }

  /** The rows one committed feature contributes: one per qualifying issue, or one NA row. */
  function FeatureRows(f: Issue, keys: seq<string>, linked: map<string, Issue>): (rows: seq<Row>)
    ensures |rows| >= 1
    ensures forall i :: 0 <= i < |rows| ==> IdentifiedBy(rows[i].id, f.key)
  {
    var qs := QualifyingIssues(keys, linked);
    if |qs| == 0 then [TaskDetails(f, None)]
    else seq(|qs|, i requires 0 <= i < |qs| => TaskDetails(f, Some(qs[i])))
  }

  function AssembleRows(committed: seq<Issue>, featureKeys: map<string, seq<string>>, linked: map<string, Issue>): (rows: seq<Row>)
    ensures |rows| >= |committed|
  {
    if |committed| == 0 then []
    else
      var f := committed[0];
      var keys := if f.key in featureKeys then featureKeys[f.key] else [];
      FeatureRows(f, keys, linked) + AssembleRows(committed[1..], featureKeys, linked)
  }

  /** `id` is the feature key `key` alone, or that key followed by "|" and a QA key. */
  predicate IdentifiedBy(id: string, key: string) {
    id == key || key + "|" <= id
  }

  /** Some row of the table is identified by `key`. */
  ghost predicate HasRowFor(rows: seq<Row>, key: string) {
    exists r :: r in rows && IdentifiedBy(r.id, key)
  }

  /** Some committed feature's key identifies the row. */
  ghost predicate RowOfSome(committed: seq<Issue>, r: Row) {
    exists f :: f in committed && IdentifiedBy(r.id, f.key)
  }

  /** Every committed feature has a row in the table. */
  lemma {:induction false} AssembleRowsCoverFeatures(committed: seq<Issue>, featureKeys: map<string, seq<string>>, linked: map<string, Issue>)
    ensures forall f :: f in committed ==> HasRowFor(AssembleRows(committed, featureKeys, linked), f.key)
    decreases |committed|
  {
    if |committed| > 0 {
      var f := committed[0];
      var keys := if f.key in featureKeys then featureKeys[f.key] else [];
      var here := FeatureRows(f, keys, linked);
      var rest := AssembleRows(committed[1..], featureKeys, linked);
      var rows := here + rest;
      assert AssembleRows(committed, featureKeys, linked) == rows;
      AssembleRowsCoverFeatures(committed[1..], featureKeys, linked);
      forall g | g in committed ensures HasRowFor(rows, g.key) {
        if g == f {
          assert here[0] in rows && IdentifiedBy(here[0].id, f.key);
        } else {
          assert g in committed[1..];
          var r :| r in rest && IdentifiedBy(r.id, g.key);
          assert r in rows;
        }
      }
    }
  }

  /** Every row of the table belongs to a committed feature. */
  lemma {:induction false} AssembleRowsOnlyFeatures(committed: seq<Issue>, featureKeys: map<string, seq<string>>, linked: map<string, Issue>)
    ensures forall r :: r in AssembleRows(committed, featureKeys, linked) ==> RowOfSome(committed, r)
    decreases |committed|
  {
    if |committed| > 0 {
      var f := committed[0];
      var keys := if f.key in featureKeys then featureKeys[f.key] else [];
      var here := FeatureRows(f, keys, linked);
      var rest := AssembleRows(committed[1..], featureKeys, linked);
      var rows := here + rest;
      assert AssembleRows(committed, featureKeys, linked) == rows;
      AssembleRowsOnlyFeatures(committed[1..], featureKeys, linked);
      forall r | r in rows ensures RowOfSome(committed, r) {
        if r in here {
          var i :| 0 <= i < |here| && here[i] == r;
          assert f in committed && IdentifiedBy(r.id, f.key);
        } else {
          var g :| g in committed[1..] && IdentifiedBy(r.id, g.key);
          assert g in committed;
        }
      }
    }
  }

  /** The table keeps the order of the committed features: each feature's rows come as one block. */
  lemma {:induction false} AssembleRowsAppend(a: seq<Issue>, b: seq<Issue>, featureKeys: map<string, seq<string>>, linked: map<string, Issue>)
    ensures AssembleRows(a + b, featureKeys, linked) == AssembleRows(a, featureKeys, linked) + AssembleRows(b, featureKeys, linked)
    decreases |a|
  {
    if |a| > 0 {
      assert (a + b)[0] == a[0];
      assert (a + b)[1..] == a[1..] + b;
      AssembleRowsAppend(a[1..], b, featureKeys, linked);
    } else {
      assert a + b == b;
    }
  }

  /** Every row of a committed feature's block appears in the table. */
  lemma {:induction false} AssembleRowsContains(committed: seq<Issue>, featureKeys: map<string, seq<string>>, linked: map<string, Issue>, f: Issue)
    requires f in committed
    ensures var keys := if f.key in featureKeys then featureKeys[f.key] else [];
      forall r :: r in FeatureRows(f, keys, linked) ==> r in AssembleRows(committed, featureKeys, linked)
    decreases |committed|
  {
    if committed[0] != f {
      assert f in committed[1..];
      AssembleRowsContains(committed[1..], featureKeys, linked, f);
    }
  }

  /**
   * `fetch_tickets`: `featureSearch` is the outcome of the retried feature
   * search; a failed search or a failed chunk of the bulk fetch fails the
   * whole call.
   */
  function FetchTickets(featureSearch: Result<seq<Issue>, FetchError>, chunkSize: int,
                        tracker: map<string, Issue>, failed: seq<string> -> bool): (r: Result<seq<Row>, FetchError>)
    ensures featureSearch.Err? ==> r == Err(featureSearch.error)
    ensures featureSearch.Ok? ==>
      (r.Err? <==> BulkFetchIssues(AllLinkedKeys(QaCommittedTasks(featureSearch.value)), chunkSize, tracker, failed).Err?)
    ensures r.Ok? ==> |r.value| >= |QaCommittedTasks(featureSearch.value)|
    ensures r.Ok? ==> forall f :: f in featureSearch.value && IsQaCommitted(f) ==> HasRowFor(r.value, f.key)
    ensures r.Ok? ==> forall row :: row in r.value ==> RowOfSome(QaCommittedTasks(featureSearch.value), row)
  {
    match featureSearch
    case Err(e) => Err(e)
    case Ok(features) =>
      var committed := QaCommittedTasks(features);
      var featureKeys := FeatureToKeys(committed);
      match BulkFetchIssues(AllLinkedKeys(committed), chunkSize, tracker, failed)
      case Err(e) => Err(e)
      case Ok(linked) =>
        AssembleRowsCoverFeatures(committed, featureKeys, linked);
        AssembleRowsOnlyFeatures(committed, featureKeys, linked);
        Ok(AssembleRows(committed, featureKeys, linked))
  }

  /**
   * Fan-out: a committed feature yields one row per qualifying linked issue,
   * identified `feature|qa`, or exactly one NA row identified by the feature
   * key when none qualifies.
   */
  lemma FanOut(f: Issue, keys: seq<string>, linked: map<string, Issue>)
    ensures var qs := QualifyingIssues(keys, linked);
      var rows := FeatureRows(f, keys, linked);
      && (|qs| == 0 ==> rows == [TaskDetails(f, None)] && rows[0].id == f.key && rows[0].qaTask == NA)
      && (|qs| > 0 ==>
            && |rows| == |qs|
            && forall i :: 0 <= i < |qs| ==> rows[i].id == f.key + "|" + qs[i].key && rows[i].qaTask == qs[i].key)
  {
  }

  predicate DistinctIssueKeys(qs: seq<Issue>) {
    forall i, j :: 0 <= i < j < |qs| ==> qs[i].key != qs[j].key
  }

  /** Distinct qualifying QA keys give distinct row identities. */
  lemma FanOutDistinctIds(f: Issue, keys: seq<string>, linked: map<string, Issue>)
    requires DistinctIssueKeys(QualifyingIssues(keys, linked))
    ensures var rows := FeatureRows(f, keys, linked);
      forall i, j :: 0 <= i < j < |rows| ==> rows[i].id != rows[j].id
  {
    var qs := QualifyingIssues(keys, linked);
    var rows := FeatureRows(f, keys, linked);
    forall i, j | 0 <= i < j < |rows| ensures rows[i].id != rows[j].id {
      var a := f.key + "|";
      assert |qs| > 0 && |rows| == |qs|;
      assert rows[i].id == a + qs[i].key && rows[j].id == a + qs[j].key;
      assert rows[i].id[|a|..] == qs[i].key && rows[j].id[|a|..] == qs[j].key;
      assert qs[i].key != qs[j].key;
    }
  }

  /** Every row of a feature carries that feature's key as the first part of its identity. */
  lemma FeatureRowsBelongToFeature(f: Issue, keys: seq<string>, linked: map<string, Issue>)
    requires '|' !in f.key
    ensures forall r :: r in FeatureRows(f, keys, linked) ==> FirstSegment(r.id) == f.key && r.comments == []
  {
    var qs := QualifyingIssues(keys, linked);
    var rows := FeatureRows(f, keys, linked);
    forall r | r in rows ensures FirstSegment(r.id) == f.key {
      if |qs| == 0 {
        FirstSegmentNoBar(f.key);
      } else {
        var i :| 0 <= i < |rows| && rows[i] == r;
        FirstSegmentOfJoin(f.key, qs[i].key);
      }
    }
  }

  /**
   * End to end: when committed feature keys are distinct, a candidate key of a
   * committed feature whose fetched issue passes `_qa_filter` gets its own row,
   * identified `feature|qa`.
   */
  lemma QualifyingTaskGetsRow(committed: seq<Issue>, linked: map<string, Issue>, f: Issue, k: string)
    requires f in committed
    requires forall i, j :: 0 <= i < j < |committed| ==> committed[i].key != committed[j].key
    requires k in CandidateLinkedKeys(f.links) && k in linked && QaFilter(linked[k])
    ensures exists r ::
      && r in AssembleRows(committed, FeatureToKeys(committed), linked)
      && r.id == f.key + "|" + linked[k].key
      && r.qaTask == linked[k].key
  {
    var fk := FeatureToKeys(committed);
    FeatureToKeysOwn(committed, f);
    var keys := CandidateLinkedKeys(f.links);
    var qs := QualifyingIssues(keys, linked);
    assert linked[k] in qs;
    var i :| 0 <= i < |qs| && qs[i] == linked[k];
    FanOut(f, keys, linked);
    var rows := FeatureRows(f, keys, linked);
    AssembleRowsContains(committed, fk, linked, f);
    assert rows[i] in rows;
  }

  /**
   * End to end on `fetch_tickets`' own result: when the committed feature keys
   * are distinct, every candidate key of a committed feature whose fetched
   * issue passes `_qa_filter` has its own row `feature|qa` in the table.
   */
  lemma FetchTicketsQaRows(features: seq<Issue>, chunkSize: int, tracker: map<string, Issue>,
                           failed: seq<string> -> bool, linked: map<string, Issue>, f: Issue, k: string)
    requires BulkFetchIssues(AllLinkedKeys(QaCommittedTasks(features)), chunkSize, tracker, failed) == Ok(linked)
    requires DistinctIssueKeys(QaCommittedTasks(features))
    requires f in features && IsQaCommitted(f) && k in CandidateLinkedKeys(f.links)
    requires k in linked && QaFilter(linked[k])
    ensures FetchTickets(Ok(features), chunkSize, tracker, failed).Ok?
    ensures exists r ::
      && r in FetchTickets(Ok(features), chunkSize, tracker, failed).value
      && r.id == f.key + "|" + k
      && r.qaTask == k
  {
    var committed := QaCommittedTasks(features);
    var asked := AllLinkedKeys(committed);
    assert f in committed;
    assert Answers(linked, KeySet(asked), tracker);
    FetchTicketsAssembles(features, chunkSize, tracker, failed, linked);
    QaRowInAssembly(committed, linked, asked, tracker, f, k);
  }

  /** A successful `fetch_tickets` answers the assembled table of the committed features. */
  lemma FetchTicketsAssembles(features: seq<Issue>, chunkSize: int, tracker: map<string, Issue>,
                              failed: seq<string> -> bool, linked: map<string, Issue>)
    requires BulkFetchIssues(AllLinkedKeys(QaCommittedTasks(features)), chunkSize, tracker, failed) == Ok(linked)
    ensures var committed := QaCommittedTasks(features);
      FetchTickets(Ok(features), chunkSize, tracker, failed) == Ok(AssembleRows(committed, FeatureToKeys(committed), linked))
  {
  }

  /** `QualifyingTaskGetsRow` with the fetched map's keys read back through `Answers`. */
  lemma QaRowInAssembly(committed: seq<Issue>, linked: map<string, Issue>, asked: seq<string>,
                        tracker: map<string, Issue>, f: Issue, k: string)
    requires Answers(linked, KeySet(asked), tracker)
    requires f in committed
    requires DistinctIssueKeys(committed)
    requires k in CandidateLinkedKeys(f.links) && k in linked && QaFilter(linked[k])
    ensures exists r ::
      && r in AssembleRows(committed, FeatureToKeys(committed), linked)
      && r.id == f.key + "|" + k
      && r.qaTask == k
  {
    assert linked[k].key == k;
    QualifyingTaskGetsRow(committed, linked, f, k);
  }

  /** A feature without the commitment marker yields no rows: it is dropped before any row is built. */
  lemma UncommittedFeatureDropped(features: seq<Issue>, f: Issue)
    requires f in features && !IsQaCommitted(f)
    ensures f !in QaCommittedTasks(features)
  {
  }
}

=== FILE: dashboard.dfy ===
/**
 * The pure helpers of the dashboard (`app.py`): rebuilding a row's identity
 * from what the grid shows, the per-release filter state and its row filter,
 * and the guards in front of the comment and effort writes.
 */
module Dashboard {
  import opened Wrappers
  import opened Text
  import opened Tracker
  import opened Classifier
  import opened Store

  const QaProjectTag: string := "SWDEV"

  // ---------------------------------------------------------------------------
  // Row identity
  // ---------------------------------------------------------------------------

  /** `format_qa_task_key`: "|qa" for a key of the QA project, "" otherwise. */
  function FormatQaTaskKey(qa: string): (r: string)
    ensures !Contains(qa, QaProjectTag) ==> r == ""
    ensures Contains(qa, QaProjectTag) ==> r == "|" + qa
  {
    if Contains(qa, QaProjectTag) then "|" + qa else ""
  }

  /** `get_ticket_id` as written: the QA part is appended only for keys containing "SWDEV". */
  function GetTicketId(featureId: string, qa: string): (r: string)
    ensures !Contains(qa, QaProjectTag) ==> r == featureId
    ensures Contains(qa, QaProjectTag) ==> r == featureId + "|" + qa
  {
    featureId + FormatQaTaskKey(qa)
  }

  /** "NA" does not contain "SWDEV", so a row without a QA task maps back to the bare feature id. */
  lemma NoQaTaskIdIsFeature(featureId: string)
    ensures GetTicketId(featureId, NA) == featureId
  {
    assert !Contains(NA, QaProjectTag) by {
      forall i | 0 <= i <= |NA| ensures !MatchAt(NA, i, QaProjectTag) {}
    }
  }

  /** The grid's "Feature ID": the `_id` split on '|', first part. */
  function FeatureIdOf(id: string): (r: string)
    ensures '|' !in r && |r| <= |id| && r == id[..|r|]
    ensures |r| < |id| ==> id[|r|] == '|'
  {
    FirstSegment(id)
  }

  /** The rendered feature id of any built row is the feature key it was built from. */
  lemma FeatureIdOfRow(f: Issue, qa: Option<Issue>)
    requires '|' !in f.key
    ensures FeatureIdOf(TaskDetails(f, qa).id) == f.key
  {
    if qa.Some? {
      RowWithQaTask(f, qa.value);
    } else {
      FirstSegmentNoBar(f.key);
    }
  }

  /**
   * For QA keys of the "SWDEV" project, the grid's feature id and QA task
   * column give back exactly the stored `_id`.
   */
  lemma GetTicketIdRoundTrip(f: Issue, q: Issue)
    requires '|' !in f.key && Contains(q.key, QaProjectTag)
    ensures var r := TaskDetails(f, Some(q));
      GetTicketId(FeatureIdOf(r.id), r.qaTask) == r.id
  {
    FeatureIdOfRow(f, Some(q));
    RowWithQaTask(f, q);
  }

  /**
   * The round trip fails for a QA task outside that project: the stored
   * `_id` is "F-1|QA-2", but the rebuilt id is "F-1", so a comment or effort
   * edit addresses a document that does not exist.
   */
  lemma GetTicketIdMissesOtherProjects()
    ensures var f := Issue("F-1", None, None, None, None, [], [], None, NoTriage);
      var q := Issue("QA-2", None, None, None, None, [], [], None, NoTriage);
      var r := TaskDetails(f, Some(q));
      && r.id == "F-1|QA-2"
      && GetTicketId(FeatureIdOf(r.id), r.qaTask) == "F-1"
  {
    var f := Issue("F-1", None, None, None, None, [], [], None, NoTriage);
    var q := Issue("QA-2", None, None, None, None, [], [], None, NoTriage);
    FeatureIdOfRow(f, Some(q));
    RowWithQaTask(f, q);
    assert !Contains("QA-2", QaProjectTag) by {
      forall i | 0 <= i <= 4 ensures !MatchAt("QA-2", i, QaProjectTag) {}
    }
  }

  /** The identity rebuild as the row builder defines it: "NA" means no QA task, anything else is appended. */
  function TicketIdFor(featureId: string, qa: string): string {
    if qa == NA then featureId else featureId + "|" + qa
  }

  /** The corrected rebuild gives back the stored `_id` of every built row whose QA key is a real key. */
  lemma TicketIdForRoundTrip(f: Issue, qa: Option<Issue>)
    requires '|' !in f.key
    requires qa.Some? ==> qa.value.key != NA
    ensures var r := TaskDetails(f, qa);
      TicketIdFor(FeatureIdOf(r.id), r.qaTask) == r.id
  {
    FeatureIdOfRow(f, qa);
    if qa.Some? {
      RowWithQaTask(f, qa.value);
    } else {
      RowWithoutQaTask(f);
    }
  }

  // ---------------------------------------------------------------------------
  // Filter state
  // ---------------------------------------------------------------------------

  /** `{'type', 'value', 'column'}`, each possibly `None`. */
  datatype FilterState = FilterState(kind: Option<string>, value: Option<string>, column: Option<string>)

  const Cleared: FilterState := FilterState(None, None, None)

  /** The session key of a release's filter. */
  function FilterKey(release: string): string {
    "filter_" + release
  }

  /** `initialize_filter_state`: a cleared filter for a release that has none; an existing one is kept. */
  function InitializeFilterState(session: map<string, FilterState>, release: string): (r: map<string, FilterState>)
    ensures FilterKey(release) in r
    ensures FilterKey(release) in session ==> r == session
    ensures FilterKey(release) !in session ==> r[FilterKey(release)] == Cleared
    ensures forall k :: k in session ==> k in r && r[k] == session[k]
    ensures r.Keys == session.Keys + {FilterKey(release)}
  {
    if FilterKey(release) in session then session else session[FilterKey(release) := Cleared]
  }

  /** `set_filter`: clicking the active type and value again clears it; anything else becomes the active filter. */
  function SetFilter(current: FilterState, kind: string, value: string, column: string): (r: FilterState)
    ensures r == Cleared <==> current.kind == Some(kind) && current.value == Some(value)
    ensures r != Cleared ==> r == FilterState(Some(kind), Some(value), Some(column))
  {
    if current.kind == Some(kind) && current.value == Some(value) then Cleared
    else FilterState(Some(kind), Some(value), Some(column))
  }

  /** `clear_filter`. */
  function ClearFilter(current: FilterState): (r: FilterState)
    ensures r.kind.None? && r.value.None? && r.column.None?
  {
    Cleared
  }

  /** Clicking the same entry twice from a cleared state ends cleared again. */
  lemma ToggleTwiceClears(kind: string, value: string, column: string)
    ensures SetFilter(SetFilter(Cleared, kind, value, column), kind, value, column) == Cleared
  {
  }

  /** Two clicks on the same entry from any state: the second click undoes the first exactly when the first one set it. */
  lemma ToggleTwice(s: FilterState, kind: string, value: string, column: string)
    ensures var once := SetFilter(s, kind, value, column);
      var twice := SetFilter(once, kind, value, column);
      && (once == Cleared <==> s.kind == Some(kind) && s.value == Some(value))
      && (once != Cleared ==> once == FilterState(Some(kind), Some(value), Some(column)))
      && (once != Cleared ==> twice == Cleared)
      && (once == Cleared ==> twice == FilterState(Some(kind), Some(value), Some(column)))
  {
  }

  /** After `clear_filter` the next click always activates its filter. */
  lemma ClearThenSet(s: FilterState, kind: string, value: string, column: string)
    ensures SetFilter(ClearFilter(s), kind, value, column) == FilterState(Some(kind), Some(value), Some(column))
  {
  }

  // ---------------------------------------------------------------------------
  // apply_filter
  // ---------------------------------------------------------------------------

  /** A frame: its column labels and its rows; a row lacking a column holds NaN there. */
  datatype Table = Table(columns: set<string>, rows: seq<map<string, string>>)

  const AssigneeKind: string := "assignee"
  const QaStatusColumn: string := "QA_status"
  const Implemented: string := "Implemented"

  /** `df[column] == value` for one row: NaN equals nothing. */
  predicate CellIs(row: map<string, string>, column: string, value: string) {
    column in row && row[column] == value
  }

  predicate Kept(row: map<string, string>, column: string, value: string, assignee: bool) {
    CellIs(row, column, value) && (assignee ==> !CellIs(row, QaStatusColumn, Implemented))
  }

  /** Boolean-mask selection: the rows that satisfy the mask, in their order. */
  function Select(rows: seq<map<string, string>>, column: string, value: string, assignee: bool): (r: seq<map<string, string>>)
    ensures |r| <= |rows|
    ensures forall x :: x in r <==> x in rows && Kept(x, column, value, assignee)
    decreases |rows|
  {
    if |rows| == 0 then []
    else
      var rest := Select(rows[1..], column, value, assignee);
      assert forall x :: x in rows <==> x == rows[0] || x in rows[1..];
      if Kept(rows[0], column, value, assignee) then [rows[0]] + rest else rest
  }

  /** Selection distributes over concatenation, so kept rows stay in their original order. */
  lemma {:induction false} SelectAppend(a: seq<map<string, string>>, b: seq<map<string, string>>, column: string, value: string, assignee: bool)
    ensures Select(a + b, column, value, assignee) == Select(a, column, value, assignee) + Select(b, column, value, assignee)
    decreases |a|
  {
    if |a| == 0 {
      assert a + b == b;
    } else {
      assert (a + b)[1..] == a[1..] + b;
      SelectAppend(a[1..], b, column, value, assignee);
    }
  }

  /**
   * `apply_filter`. `None` stands for the `KeyError` raised when the assignee
   * filter meets a frame without a `QA_status` column.
   */
  function ApplyFilter(t: Table, session: map<string, FilterState>, release: string): (r: Option<Table>)
    ensures FilterKey(release) !in session ==> r == Some(t)
    ensures FilterKey(release) in session ==>
      var f := session[FilterKey(release)];
      && (!(Truthy(f.kind) && Truthy(f.value) && Truthy(f.column)) || f.column.value !in t.columns ==> r == Some(t))
      && (r.None? <==> Truthy(f.kind) && Truthy(f.value) && Truthy(f.column) && f.column.value in t.columns
                       && f.kind.value == AssigneeKind && QaStatusColumn !in t.columns)
    ensures r.Some? ==> r.value.columns == t.columns && |r.value.rows| <= |t.rows|
    ensures r.Some? ==> forall x :: x in r.value.rows ==> x in t.rows
  {
    if FilterKey(release) !in session then Some(t)
    else
      var f := session[FilterKey(release)];
      if Truthy(f.kind) && Truthy(f.value) && Truthy(f.column) && f.column.value in t.columns then
        var assignee := f.kind.value == AssigneeKind;
        if assignee && QaStatusColumn !in t.columns then None
        else Some(Table(t.columns, Select(t.rows, f.column.value, f.value.value, assignee)))
      else Some(t)
  }

  /** A cleared filter shows the whole frame. */
  lemma ClearedFilterShowsAll(t: Table, session: map<string, FilterState>, release: string, s: FilterState)
    requires FilterKey(release) in session && session[FilterKey(release)] == ClearFilter(s)
    ensures ApplyFilter(t, session, release) == Some(t)
  {
  }

  /** An active filter keeps exactly the matching rows, and the assignee filter also drops implemented ones. */
  lemma ApplyFilterKeepsMatches(t: Table, session: map<string, FilterState>, release: string)
    requires FilterKey(release) in session
    requires var f := session[FilterKey(release)];
      Truthy(f.kind) && Truthy(f.value) && Truthy(f.column) && f.column.value in t.columns
      && (f.kind.value == AssigneeKind ==> QaStatusColumn in t.columns)
    ensures var f := session[FilterKey(release)];
      var r := ApplyFilter(t, session, release);
      && r.Some?
      && forall x :: x in r.value.rows <==>
           x in t.rows && CellIs(x, f.column.value, f.value.value)
           && (f.kind.value == AssigneeKind ==> !CellIs(x, QaStatusColumn, Implemented))
  {
  }

  /** Filtering an already filtered frame again changes nothing. */
  lemma {:induction false} SelectIdempotent(rows: seq<map<string, string>>, column: string, value: string, assignee: bool)
    ensures Select(Select(rows, column, value, assignee), column, value, assignee) == Select(rows, column, value, assignee)
    decreases |rows|
  {
    if |rows| > 0 {
      SelectIdempotent(rows[1..], column, value, assignee);
    }
  }

  lemma ApplyFilterIdempotent(t: Table, session: map<string, FilterState>, release: string)
    requires ApplyFilter(t, session, release).Some?
    ensures ApplyFilter(ApplyFilter(t, session, release).value, session, release) == ApplyFilter(t, session, release)
  {
    if FilterKey(release) in session {
      var f := session[FilterKey(release)];
      if Truthy(f.kind) && Truthy(f.value) && Truthy(f.column) && f.column.value in t.columns {
        SelectIdempotent(t.rows, f.column.value, f.value.value, f.kind.value == AssigneeKind);
      }
    }
  }

  // ---------------------------------------------------------------------------
  // Write guards
  // ---------------------------------------------------------------------------

  /** The grid row a dialog acts on: its "Feature ID", "QA_task" and "Effort" cells. */
  datatype SelectedRow = SelectedRow(featureId: string, qaTask: string, effort: Option<string>)

  /**
   * `handle_comment_submission` once the ticket id is resolved: a blank comment
   * is refused before any write; otherwise the comment is pushed onto the
   * document with that id and the answer is the acknowledgement, or false
   * when the push raises. An id that matches no document writes nothing but
   * is still acknowledged.
   */
  function CommentOn(c: Collection, id: string, comment: string, acked: bool): (r: (Collection, bool))
    requires Valid(c)
    ensures Valid(r.0)
    ensures r.0.docs.Keys == c.docs.Keys
    ensures IsBlank(comment) ==> r == (c, false)
    ensures r.1 ==> !IsBlank(comment) && acked
    ensures !IsBlank(comment) && id !in c.docs ==> r == (c, acked)
    ensures !IsBlank(comment) && id in c.docs && (CommentsField !in c.docs[id] || c.docs[id][CommentsField].List?) ==>
      && r.1 == acked
      && Comments(r.0.docs[id]) == Comments(c.docs[id]) + [comment]
    ensures forall k :: k in c.docs && k != id ==> r.0.docs[k] == c.docs[k]
  {
    if IsBlank(comment) then (c, false)
    else
      var o := UpdateComments(c, id, comment, acked);
      match o.answer
      case Ok(ack) => (o.coll, ack)
      case Err(_) => (o.coll, false)
  }

  /** `handle_comment_submission` as written: the id is rebuilt with `get_ticket_id`. */
  function HandleComment(c: Collection, row: SelectedRow, comment: string, acked: bool): (r: (Collection, bool))
    requires Valid(c)
    ensures Valid(r.0) && r.0.docs.Keys == c.docs.Keys
    ensures IsBlank(comment) ==> r == (c, false)
    ensures !IsBlank(comment) && GetTicketId(row.featureId, row.qaTask) !in c.docs ==> r == (c, acked)
    ensures var id := GetTicketId(row.featureId, row.qaTask);
      !IsBlank(comment) && id in c.docs && (CommentsField !in c.docs[id] || c.docs[id][CommentsField].List?) ==>
      && r.1 == acked
      && Comments(r.0.docs[id]) == Comments(c.docs[id]) + [comment]
    ensures forall k :: k in c.docs && k != GetTicketId(row.featureId, row.qaTask) ==> r.0.docs[k] == c.docs[k]
  {
    CommentOn(c, GetTicketId(row.featureId, row.qaTask), comment, acked)
  }

  /** The comment handler with the corrected identity rebuild. */
  function HandleCommentFixed(c: Collection, row: SelectedRow, comment: string, acked: bool): (r: (Collection, bool))
    requires Valid(c)
  {
    CommentOn(c, TicketIdFor(row.featureId, row.qaTask), comment, acked)
  }

  /**
   * `handle_effort_update` once the ticket id is resolved: choosing the effort
   * the row already shows is a no-op answering false; otherwise `Effort` alone
   * is set on the document with that id and the answer is the acknowledgement.
   */
  function EffortOn(c: Collection, id: string, row: SelectedRow, effort: string, acked: bool): (r: (Collection, bool))
    requires Valid(c)
    ensures Valid(r.0)
    ensures r.0.docs.Keys == c.docs.Keys
    ensures row.effort == Some(effort) ==> r == (c, false)
    ensures row.effort != Some(effort) ==> r.1 == acked
    ensures row.effort != Some(effort) && id !in c.docs ==> r == (c, acked)
    ensures row.effort != Some(effort) && id in c.docs ==>
      && r.0.docs[id].Keys == c.docs[id].Keys + {EffortField}
      && r.0.docs[id][EffortField] == Str(effort)
      && forall f :: f in c.docs[id] && f != EffortField ==> r.0.docs[id][f] == c.docs[id][f]
    ensures forall k :: k in c.docs && k != id ==> r.0.docs[k] == c.docs[k]
  {
    if row.effort == Some(effort) then (c, false)
    else
      var o := UpdateEffort(c, id, Str(effort), acked);
      (o.coll, o.answer.value)
  }

  /** `handle_effort_update` as written: the id is rebuilt with `get_ticket_id`. */
  function HandleEffort(c: Collection, row: SelectedRow, effort: string, acked: bool): (r: (Collection, bool))
    requires Valid(c)
    ensures Valid(r.0) && r.0.docs.Keys == c.docs.Keys
    ensures row.effort == Some(effort) ==> r == (c, false)
    ensures row.effort != Some(effort) && GetTicketId(row.featureId, row.qaTask) !in c.docs ==> r == (c, acked)
    ensures var id := GetTicketId(row.featureId, row.qaTask);
      row.effort != Some(effort) && id in c.docs ==>
      && r.1 == acked
      && r.0.docs[id].Keys == c.docs[id].Keys + {EffortField}
      && r.0.docs[id][EffortField] == Str(effort)
      && forall f :: f in c.docs[id] && f != EffortField ==> r.0.docs[id][f] == c.docs[id][f]
    ensures forall k :: k in c.docs && k != GetTicketId(row.featureId, row.qaTask) ==> r.0.docs[k] == c.docs[k]
  {
    EffortOn(c, GetTicketId(row.featureId, row.qaTask), row, effort, acked)
  }

  /** The effort handler with the corrected identity rebuild. */
  function HandleEffortFixed(c: Collection, row: SelectedRow, effort: string, acked: bool): (r: (Collection, bool))
    requires Valid(c)
  {
    EffortOn(c, TicketIdFor(row.featureId, row.qaTask), row, effort, acked)
  }

  /** The store holding only the document of feature F-1 with QA task QA-2. */
  function OneRowStore(): (c: Collection)
    ensures Valid(c)
  {
    Collection(true, map["F-1|QA-2" := map[IdField := Str("F-1|QA-2")]])
  }

  /**
   * As written, a comment or an effort chosen on the grid row of F-1 / QA-2 is
   * acknowledged, yet nothing is written: the rebuilt id "F-1" matches no
   * document. The corrected handlers write to "F-1|QA-2".
   */
  lemma WriteLostForOtherProjects()
    ensures var c := OneRowStore();
      var row := SelectedRow("F-1", "QA-2", None);
      && HandleComment(c, row, "x", true) == (c, true)
      && HandleEffort(c, row, "M", true) == (c, true)
      && Comments(HandleCommentFixed(c, row, "x", true).0.docs["F-1|QA-2"]) == ["x"]
      && HandleEffortFixed(c, row, "M", true).0.docs["F-1|QA-2"][EffortField] == Str("M")
  {
    var c := OneRowStore();
    assert !Contains("QA-2", QaProjectTag) by {
      forall i | 0 <= i <= 4 ensures !MatchAt("QA-2", i, QaProjectTag) {}
    }
    assert GetTicketId("F-1", "QA-2") == "F-1";
    assert "F-1" !in c.docs;
    assert !IsBlank("x") by { assert !IsSpace("x"[0]); }
    assert TicketIdFor("F-1", "QA-2") == "F-1|QA-2";
    assert CommentsField !in c.docs["F-1|QA-2"];
  }

  /**
   * The corrected comment handler reaches the row's own document: for a
   * stored row as built, a non-blank comment chosen on its grid row is
   * appended to that document's thread.
   */
  lemma FixedCommentReachesRow(c: Collection, f: Issue, qa: Option<Issue>, comment: string, acked: bool, effort: Option<string>)
    requires Valid(c) && '|' !in f.key && (qa.Some? ==> qa.value.key != NA)
    requires !IsBlank(comment)
    requires var id := TaskDetails(f, qa).id;
      id in c.docs && (CommentsField !in c.docs[id] || c.docs[id][CommentsField].List?)
    ensures var r := TaskDetails(f, qa);
      var out := HandleCommentFixed(c, SelectedRow(FeatureIdOf(r.id), r.qaTask, effort), comment, acked);
      && out.1 == acked
      && r.id in out.0.docs
      && Comments(out.0.docs[r.id]) == Comments(c.docs[r.id]) + [comment]
  {
    TicketIdForRoundTrip(f, qa);
  }

  /** The corrected effort handler sets `Effort` on the row's own document. */
  lemma FixedEffortReachesRow(c: Collection, f: Issue, qa: Option<Issue>, effort: string, acked: bool, shown: Option<string>)
    requires Valid(c) && '|' !in f.key && (qa.Some? ==> qa.value.key != NA)
    requires shown != Some(effort) && TaskDetails(f, qa).id in c.docs
    ensures var r := TaskDetails(f, qa);
      var out := HandleEffortFixed(c, SelectedRow(FeatureIdOf(r.id), r.qaTask, shown), effort, acked);
      && out.1 == acked
      && r.id in out.0.docs && EffortField in out.0.docs[r.id]
      && out.0.docs[r.id][EffortField] == Str(effort)
  {
    TicketIdForRoundTrip(f, qa);
  }
}

=== FILE: legacy_fetcher.dfy ===
/**
 * The older fetcher (`ticket_fetcher.py`): one issue lookup per candidate
 * link, no retries, and a row builder in which a later matching link
 * overwrites the Auto/TMS task (last match wins). It dereferences attributes
 * without defaults, so a missing one raises: every function here returns
 * `None` exactly where the code would raise, and the raise ends the whole
 * fetch.
 */
module LegacyFetcher {
  import opened Wrappers
  import opened Text
  import opened Tracker
  import opened Classifier

  /** `QA_assignee` holds the raw assignee object (possibly `None`), or "NA" without a QA task. */
  datatype AssigneeCell = AssigneeNA | RawAssignee(assignee: Option<Assignee>)

  /** The legacy row, keyed by `Feature_task` rather than a composite `_id`. */
  datatype LegacyRow = LegacyRow(
    featureTask: string,
    featureStatus: string,
    featureSummary: string,
    qaTask: string,
    qaStatus: string,
    qaAssignee: AssigneeCell,
    qaLabels: string,
    autoTask: string,
    autoStatus: string,
    tmsTask: string,
    tmsStatus: string)

  // ---------------------------------------------------------------------------
  // Commitment filter (`get_qa_committed_task`)
  // ---------------------------------------------------------------------------

  /** `re.search` on a missing description raises. */
  function LegacyCommitted(features: seq<Issue>): (r: Option<seq<Issue>>)
    ensures r.None? <==> exists f :: f in features && f.description.None?
    ensures r.Some? ==> r.value == QaCommittedTasks(features)
  {
    if |features| == 0 then Some([])
    else
      var f := features[0];
      assert forall g :: g in features <==> g == f || g in features[1..];
      if f.description.None? then None
      else
        match LegacyCommitted(features[1..])
        case None => None
        case Some(rest) => Some(if MatchesCommitMarker(f.description.value) then [f] + rest else rest)
  }

  // ---------------------------------------------------------------------------
  // Row builder (`get_task_details`, last match wins)
  // ---------------------------------------------------------------------------

  /** One side of one link; `hasattr` is false for an absent side. */
  function LegacySideStep(st: SubTasks, side: Option<LinkedIssue>): Option<SubTasks> {
    if side.None? then Some(st)
    else
      var li := side.value;
      if li.issuetype.None? then None
      else if li.issuetype != Some(TaskType) then Some(st)
      else if li.summary.None? then None
      else
        var autoHit := ContainsCi(li.summary.value, "auto");
        var tmsHit := ContainsCi(li.summary.value, "tms");
        if (autoHit || tmsHit) && (li.key.None? || li.status.None?) then None
        else Some(SubTasks(
          if autoHit then Slot(li.key.value, li.status.value) else st.auto,
          if tmsHit then Slot(li.key.value, li.status.value) else st.tms))
  }

  function LegacyScan(st: SubTasks, links: seq<Link>): Option<SubTasks>
    decreases |links|
  {
    if |links| == 0 then Some(st)
    else
      match LegacySideStep(st, links[0].inward)
      case None => None
      case Some(a) =>
        match LegacySideStep(a, links[0].outward)
        case None => None
        case Some(b) => LegacyScan(b, links[1..])
  }

  function LegacyTaskDetails(f: Issue, qa: Option<Issue>): (r: Option<LegacyRow>)
    ensures r.Some? <==>
      && f.status.Some? && f.summary.Some?
      && (qa.Some? ==> qa.value.status.Some? && LegacyScan(SubTasks(EmptySlot, EmptySlot), qa.value.links).Some?)
    ensures r.Some? ==>
      && r.value.featureTask == f.key
      && r.value.featureStatus == f.status.value
      && r.value.featureSummary == f.summary.value
    ensures r.Some? && qa.Some? ==>
      var found := LegacyScan(SubTasks(EmptySlot, EmptySlot), qa.value.links).value;
      && r.value.qaTask == qa.value.key && r.value.qaStatus == qa.value.status.value
      && r.value.qaLabels == JoinComma(qa.value.labels)
      && r.value.autoTask == found.auto.task && r.value.autoStatus == found.auto.status
      && r.value.tmsTask == found.tms.task && r.value.tmsStatus == found.tms.status
  {
    if f.status.None? || f.summary.None? then None
    else
      var base := LegacyRow(f.key, f.status.value, f.summary.value, NA, NA, AssigneeNA, NA, NA, NA, NA, NA);
      match qa
      case None => Some(base)
      case Some(q) =>
        if q.status.None? then None
        else
          match LegacyScan(SubTasks(EmptySlot, EmptySlot), q.links)
          case None => None
          case Some(found) =>
            Some(base.(qaTask := q.key, qaStatus := q.status.value,
                       qaAssignee := RawAssignee(q.assignee), qaLabels := JoinComma(q.labels),
                       autoTask := found.auto.task, autoStatus := found.auto.status,
                       tmsTask := found.tms.task, tmsStatus := found.tms.status))
  }

  /** Without a QA task the legacy row is the feature key with every QA/Auto/TMS field "NA". */
  lemma LegacyRowWithoutQaTask(f: Issue)
    requires f.status.Some? && f.summary.Some?
    ensures var r := LegacyTaskDetails(f, None);
      && r.Some?
      && r.value.featureTask == f.key
      && r.value.qaTask == NA && r.value.qaStatus == NA && r.value.qaAssignee == AssigneeNA && r.value.qaLabels == NA
      && r.value.autoTask == NA && r.value.autoStatus == NA && r.value.tmsTask == NA && r.value.tmsStatus == NA
  {
  }

  /** The last Task-typed candidate whose summary matches `pat`, if any. */
  function LastHit(cands: seq<LinkedIssue>, pat: string): (r: Option<nat>)
    ensures r.Some? ==> r.value < |cands| && Hits(cands[r.value], pat)
    ensures r.Some? ==> forall j :: r.value < j < |cands| ==> !Hits(cands[j], pat)
    ensures r.None? ==> forall j :: 0 <= j < |cands| ==> !Hits(cands[j], pat)
  {
    if |cands| == 0 then None
    else if Hits(cands[|cands| - 1], pat) then Some(|cands| - 1)
    else
      var r := LastHit(cands[..|cands| - 1], pat);
      assert forall j :: 0 <= j < |cands| - 1 ==> cands[..|cands| - 1][j] == cands[j];
      r
  }

  /** A scan that does not raise: every side it meets has a type, and every Task side a summary. */
  ghost predicate ScanSucceeds(links: seq<Link>) {
    LegacyScan(SubTasks(EmptySlot, EmptySlot), links).Some?
  }

  /** The slot after a legacy scan of some candidates: a later hit replaces an earlier one. */
  function LastWins(s: Slot, cands: seq<LinkedIssue>, pat: string): Slot
    decreases |cands|
  {
    if |cands| == 0 then s
    else
      var c := cands[0];
      LastWins(if Hits(c, pat) then Slot(c.key.GetOr(""), c.status.GetOr("")) else s, cands[1..], pat)
  }

  /** With no hit among the candidates, the slot is left as it was. */
  lemma {:induction false} LastWinsNoHit(s: Slot, cands: seq<LinkedIssue>, pat: string)
    requires forall j :: 0 <= j < |cands| ==> !Hits(cands[j], pat)
    ensures LastWins(s, cands, pat) == s
    decreases |cands|
  {
    if |cands| > 0 {
      assert forall j :: 0 <= j < |cands| - 1 ==> cands[1..][j] == cands[j + 1];
      LastWinsNoHit(s, cands[1..], pat);
    }
  }

  /** The slot ends up holding the hit at `i` when no later candidate hits. */
  lemma {:induction false} LastWinsAt(s: Slot, cands: seq<LinkedIssue>, pat: string, i: nat)
    requires i < |cands| && Hits(cands[i], pat)
    requires forall j :: i < j < |cands| ==> !Hits(cands[j], pat)
    ensures LastWins(s, cands, pat) == Slot(cands[i].key.GetOr(""), cands[i].status.GetOr(""))
    decreases |cands|
  {
    var c := cands[0];
    var s' := if Hits(c, pat) then Slot(c.key.GetOr(""), c.status.GetOr("")) else s;
    assert forall j :: 0 <= j < |cands| - 1 ==> cands[1..][j] == cands[j + 1];
    if i == 0 {
      LastWinsNoHit(s', cands[1..], pat);
    } else {
      LastWinsAt(s', cands[1..], pat, i - 1);
    }
  }

  /** One link of a scan that does not raise offers its Task sides in order, a later hit replacing an earlier one. */
  lemma LegacyLinkIsLastWins(st: SubTasks, l: Link)
    requires LegacySideStep(st, l.inward).Some?
    requires LegacySideStep(LegacySideStep(st, l.inward).value, l.outward).Some?
    ensures var b := LegacySideStep(LegacySideStep(st, l.inward).value, l.outward).value;
      && b.auto == LastWins(st.auto, TaskSides([l]), "auto")
      && b.tms == LastWins(st.tms, TaskSides([l]), "tms")
  {
    var inw := if l.inward.Some? && IsTask(l.inward.value) then [l.inward.value] else [];
    var outw := if l.outward.Some? && IsTask(l.outward.value) then [l.outward.value] else [];
    assert [l][1..] == [];
    assert TaskSides([l]) == inw + outw;
    LastWinsAppend(st.auto, inw, outw, "auto");
    LastWinsAppend(st.tms, inw, outw, "tms");
  }

  lemma {:induction false} LegacyScanIsLastWins(st: SubTasks, links: seq<Link>)
    requires LegacyScan(st, links).Some?
    ensures LegacyScan(st, links).value.auto == LastWins(st.auto, TaskSides(links), "auto")
    ensures LegacyScan(st, links).value.tms == LastWins(st.tms, TaskSides(links), "tms")
    decreases |links|
  {
    if |links| > 0 {
      var l := links[0];
      var a := LegacySideStep(st, l.inward).value;
      var b := LegacySideStep(a, l.outward).value;
      assert LegacyScan(st, links) == LegacyScan(b, links[1..]);
      LegacyLinkIsLastWins(st, l);
      LegacyScanIsLastWins(b, links[1..]);
      var head := TaskSides([l]);
      var tail := TaskSides(links[1..]);
      TaskSidesCons(links);
      LastWinsAppend(st.auto, head, tail, "auto");
      LastWinsAppend(st.tms, head, tail, "tms");
    }
  }

  lemma {:induction false} LastWinsAppend(s: Slot, a: seq<LinkedIssue>, b: seq<LinkedIssue>, pat: string)
    ensures LastWins(s, a + b, pat) == LastWins(LastWins(s, a, pat), b, pat)
    decreases |a|
  {
    if |a| > 0 {
      assert (a + b)[1..] == a[1..] + b;
      var c := a[0];
      LastWinsAppend(if Hits(c, pat) then Slot(c.key.GetOr(""), c.status.GetOr("")) else s, a[1..], b, pat);
    } else {
      assert a + b == b;
    }
  }

  /**
   * Last match wins: in a legacy row the Auto task is the last Task-typed
   * linked issue whose summary contains "auto", and "NA" if there is none.
   */
  lemma LegacyAutoLastMatch(f: Issue, q: Issue)
    requires LegacyTaskDetails(f, Some(q)).Some?
    ensures var r := LegacyTaskDetails(f, Some(q)).value;
      var sides := TaskSides(q.links);
      var last := LastHit(sides, "auto");
      && (last.None? ==> r.autoTask == NA && r.autoStatus == NA)
      && (last.Some? ==> r.autoTask == sides[last.value].key.GetOr("") && r.autoStatus == sides[last.value].status.GetOr(""))
  {
    var st := SubTasks(EmptySlot, EmptySlot);
    LegacyScanIsLastWins(st, q.links);
    var sides := TaskSides(q.links);
    var last := LastHit(sides, "auto");
    if last.Some? {
      LastWinsAt(EmptySlot, sides, "auto", last.value);
    } else {
      LastWinsNoHit(EmptySlot, sides, "auto");
    }
  }

  /** Two Task links whose summaries both mention "auto": the optimized row keeps the first, the legacy row the second. */
  lemma FirstMatchVersusLastMatch()
    ensures var a1 := LinkedIssue(Some("A-1"), Some(TaskType), Some("Auto"), Some("Open"));
      var a2 := LinkedIssue(Some("A-2"), Some(TaskType), Some("auto"), Some("Done"));
      var q := Issue("Q-1", Some("Open"), Some("qa"), None, None, [], [Link(None, Some(a1), None), Link(None, Some(a2), None)], Some(TaskType), NoTriage);
      var f := Issue("F-1", Some("Open"), Some("feature"), None, None, [], [], None, NoTriage);
      && TaskDetails(f, Some(q)).autoTask == "A-1"
      && LegacyTaskDetails(f, Some(q)).Some?
      && LegacyTaskDetails(f, Some(q)).value.autoTask == "A-2"
  {
    var a1 := LinkedIssue(Some("A-1"), Some(TaskType), Some("Auto"), Some("Open"));
    var a2 := LinkedIssue(Some("A-2"), Some(TaskType), Some("auto"), Some("Done"));
    var l1 := Link(None, Some(a1), None);
    var l2 := Link(None, Some(a2), None);
    var q := Issue("Q-1", Some("Open"), Some("qa"), None, None, [], [l1, l2], Some(TaskType), NoTriage);
    var f := Issue("F-1", Some("Open"), Some("feature"), None, None, [], [], None, NoTriage);
    assert CiMatchAt("Auto", 0, "auto");
    assert CiMatchAt("auto", 0, "auto");
    NoTmsIn("Auto");
    NoTmsIn("auto");
    assert [l1, l2][1..] == [l2];
    assert TaskSides([l2]) == [a2] by { assert [l2][1..] == []; }
    assert TaskSides(q.links) == [a1, a2];
    AutoFirstMatch(f, q, 0);
    var st := SubTasks(EmptySlot, EmptySlot);
    var s1 := SubTasks(Slot("A-1", "Open"), EmptySlot);
    var s2 := SubTasks(Slot("A-2", "Done"), EmptySlot);
    assert LegacySideStep(st, Some(a1)) == Some(s1);
    assert LegacySideStep(s1, Some(a2)) == Some(s2);
    assert LegacyScan(s2, []) == Some(s2);
    assert LegacyScan(s1, [l2]) == Some(s2);
    assert LegacyScan(st, q.links) == Some(s2);
  }

  /** "tms" cannot occur in a four-letter word spelling "auto" in any case. */
  lemma NoTmsIn(s: string)
    requires s == "Auto" || s == "auto"
    ensures !ContainsCi(s, "tms")
  {
    assert |s| == 4 && s[0] in "Aa" && s[1] == 'u';
    forall i | 0 <= i <= |s| ensures !CiMatchAt(s, i, "tms") {
      if i <= 1 {
        assert LowerChar(s[i + 0]) != "tms"[0];
      }
    }
  }

  // ---------------------------------------------------------------------------
  // Qualification and fan-out (`fetch_tickets`)
  // ---------------------------------------------------------------------------

  /** `triage_field and triage_field[0] == '73317'`: a bare string's first element is one character, never the sentinel. */
  predicate LegacyTriageOk(t: Triage) {
    match t
    case NoTriage => false
    case TriageList(items) => |items| > 0 && items[0] == TriageText(TriageSentinel)
    case TriageString(s) => false
  }

  /** A "Comprised of Task" link whose embedded side is present: the only links the legacy loop looks into. */
  predicate LegacyCandidate(l: Link) {
    l.inwardLabel == Some(ComprisedOfTask) && LinkedSide(l).Some?
  }

  /** `t` is the fetched issue of a candidate link whose embedded side is a Task, and it carries the sentinel and is not Rejected. */
  ghost predicate LegacyKeeps(l: Link, issues: map<string, Issue>, t: Issue) {
    && LegacyCandidate(l)
    && LinkedSide(l).value.issuetype == Some(TaskType)
    && LinkedSide(l).value.key.Some?
    && LinkedSide(l).value.key.value in issues
    && issues[LinkedSide(l).value.key.value] == t
    && LegacyTriageOk(t.triage) && t.status.Some? && t.status.value != Rejected
  }

  /**
   * Where the legacy loop raises on a candidate link: the embedded side has no
   * issue type, or it is a Task whose key is missing or cannot be fetched, or
   * whose fetched issue passes the triage test but has no status.
   */
  predicate LegacyRaises(l: Link, issues: map<string, Issue>) {
    && LegacyCandidate(l)
    && var li := LinkedSide(l).value;
    || li.issuetype.None?
    || (&& li.issuetype == Some(TaskType)
        && (|| li.key.None? || li.key.value !in issues
            || (LegacyTriageOk(issues[li.key.value].triage) && issues[li.key.value].status.None?)))
  }

  /**
   * The qualifying QA tasks of one feature, each fetched by key from `issues`.
   * A link counts only if it is "Comprised of Task" and its embedded issue is a
   * Task; the fetched issue must carry the triage sentinel and not be Rejected.
   */
  function LegacyQualifying(links: seq<Link>, issues: map<string, Issue>): (r: Option<seq<Issue>>)
    ensures r.Some? ==> forall t :: t in r.value ==> LegacyTriageOk(t.triage) && t.status.Some? && t.status.value != Rejected
    ensures r.Some? ==> |r.value| <= |links|
    ensures r.None? <==> exists l :: l in links && LegacyRaises(l, issues)
    ensures r.Some? ==> forall t :: t in r.value <==> exists l :: l in links && LegacyKeeps(l, issues, t)
  {
    if |links| == 0 then Some([])
    else
      var l := links[0];
      var linked := LinkedSide(l);
      var here: Option<seq<Issue>> :=
        if l.inwardLabel != Some(ComprisedOfTask) || linked.None? then Some([])
        else
          var li := linked.value;
          if li.issuetype.None? then None
          else if li.issuetype != Some(TaskType) then Some([])
          else if li.key.None? || li.key.value !in issues then None
          else
            var t := issues[li.key.value];
            if !LegacyTriageOk(t.triage) then Some([])
            else if t.status.None? then None
            else if t.status.value != Rejected then Some([t])
            else Some([]);
      assert forall x :: x in links <==> x == l || x in links[1..];
      assert here.None? <==> LegacyRaises(l, issues);
      assert here.Some? ==> forall t :: t in here.value <==> LegacyKeeps(l, issues, t);
      match here
      case None => None
      case Some(h) =>
        match LegacyQualifying(links[1..], issues)
        case None => None
        case Some(rest) => Some(h + rest)
  }

  /** Every row of every qualifying task, or `None` as soon as one raises. */
  function LegacyDetailsAll(f: Issue, qs: seq<Issue>): (r: Option<seq<LegacyRow>>)
    ensures r.Some? ==> |r.value| == |qs|
    ensures r.Some? ==> forall i :: 0 <= i < |qs| ==> LegacyTaskDetails(f, Some(qs[i])) == Some(r.value[i])
  {
    if |qs| == 0 then Some([])
    else
      match LegacyTaskDetails(f, Some(qs[0]))
      case None => None
      case Some(row) =>
        match LegacyDetailsAll(f, qs[1..])
        case None => None
        case Some(rest) => Some([row] + rest)
  }

  function LegacyFeatureRows(f: Issue, issues: map<string, Issue>): (r: Option<seq<LegacyRow>>)
    ensures r.Some? ==> |r.value| >= 1
    ensures r.Some? ==> forall i :: 0 <= i < |r.value| ==> r.value[i].featureTask == f.key
  {
    match LegacyQualifying(f.links, issues)
    case None => None
    case Some(qs) =>
      if |qs| == 0 then
        match LegacyTaskDetails(f, None)
        case None => None
        case Some(row) => Some([row])
      else LegacyDetailsAll(f, qs)
  }

  /** Some legacy row is for the feature `key`. */
  ghost predicate HasLegacyRowFor(rows: seq<LegacyRow>, key: string) {
    exists j :: 0 <= j < |rows| && rows[j].featureTask == key
  }

  /** The legacy row is for one of the `committed` features. */
  ghost predicate LegacyRowOfSome(committed: seq<Issue>, row: LegacyRow) {
    exists i :: 0 <= i < |committed| && committed[i].key == row.featureTask
  }

  /** Some committed feature makes `get_task_details` raise. */
  ghost predicate SomeFeatureRaises(committed: seq<Issue>, issues: map<string, Issue>) {
    exists i :: 0 <= i < |committed| && LegacyFeatureRows(committed[i], issues).None?
  }

  function LegacyRowsFor(committed: seq<Issue>, issues: map<string, Issue>): (r: Option<seq<LegacyRow>>)
    ensures r.None? <==> SomeFeatureRaises(committed, issues)
    ensures r.Some? ==> forall i :: 0 <= i < |committed| ==> HasLegacyRowFor(r.value, committed[i].key)
    ensures r.Some? ==> forall j :: 0 <= j < |r.value| ==> LegacyRowOfSome(committed, r.value[j])
  {
    if |committed| == 0 then Some([])
    else
      match LegacyFeatureRows(committed[0], issues)
      case None => None
      case Some(rows) =>
        match LegacyRowsFor(committed[1..], issues)
        case None =>
          assert SomeFeatureRaises(committed, issues) by {
            var i :| 0 <= i < |committed[1..]| && LegacyFeatureRows(committed[1..][i], issues).None?;
            assert committed[i + 1] == committed[1..][i];
          }
          None
        case Some(rest) =>
          LegacyRowsForCons(committed, issues, rows, rest);
          Some(rows + rest)
  }

  /** The cons step of `LegacyRowsFor`: the head's rows followed by the tail's keep all three properties. */
  lemma LegacyRowsForCons(committed: seq<Issue>, issues: map<string, Issue>, rows: seq<LegacyRow>, rest: seq<LegacyRow>)
    requires |committed| > 0
    requires LegacyFeatureRows(committed[0], issues) == Some(rows)
    requires !SomeFeatureRaises(committed[1..], issues)
    requires forall i :: 0 <= i < |committed| - 1 ==> HasLegacyRowFor(rest, committed[1..][i].key)
    requires forall j :: 0 <= j < |rest| ==> LegacyRowOfSome(committed[1..], rest[j])
    ensures !SomeFeatureRaises(committed, issues)
    ensures forall i :: 0 <= i < |committed| ==> HasLegacyRowFor(rows + rest, committed[i].key)
    ensures forall j :: 0 <= j < |rows + rest| ==> LegacyRowOfSome(committed, (rows + rest)[j])
  {
    var all := rows + rest;
    forall i | 0 <= i < |committed| ensures LegacyFeatureRows(committed[i], issues).Some? {
      if i > 0 {
        assert committed[1..][i - 1] == committed[i];
      }
    }
    forall i | 0 <= i < |committed| ensures HasLegacyRowFor(all, committed[i].key) {
      if i == 0 {
        assert all[0] == rows[0];
      } else {
        assert committed[1..][i - 1] == committed[i];
        var j :| 0 <= j < |rest| && rest[j].featureTask == committed[i].key;
        assert all[|rows| + j] == rest[j];
      }
    }
    forall j | 0 <= j < |all| ensures LegacyRowOfSome(committed, all[j]) {
      if j < |rows| {
        assert all[j] == rows[j];
      } else {
        assert all[j] == rest[j - |rows|];
        var i :| 0 <= i < |committed[1..]| && committed[1..][i].key == all[j].featureTask;
        assert committed[i + 1] == committed[1..][i];
      }
    }
  }

  /**
   * `fetch_tickets`: the feature list is the search result; `issues` answers `auth.issue(key)`.
   * It raises exactly when the committed filter or some committed feature raises;
   * otherwise every committed feature has a row and every row is a committed feature's.
   */
  function LegacyFetchTickets(features: seq<Issue>, issues: map<string, Issue>): (r: Option<seq<LegacyRow>>)
    ensures r.None? <==> LegacyCommitted(features).None? || SomeFeatureRaises(LegacyCommitted(features).value, issues)
    ensures r.Some? ==> LegacyCommitted(features).Some?
    ensures r.Some? ==> var committed := LegacyCommitted(features).value;
      && (forall i :: 0 <= i < |committed| ==> HasLegacyRowFor(r.value, committed[i].key))
      && (forall j :: 0 <= j < |r.value| ==> LegacyRowOfSome(committed, r.value[j]))
  {
    match LegacyCommitted(features)
    case None => None
    case Some(committed) => LegacyRowsFor(committed, issues)
  }

  /**
   * Legacy fan-out: one row per qualifying QA task, each built from that task,
   * or exactly one NA row when none qualifies.
   */
  lemma LegacyFanOut(f: Issue, issues: map<string, Issue>)
    requires LegacyFeatureRows(f, issues).Some?
    ensures var qs := LegacyQualifying(f.links, issues);
      var rows := LegacyFeatureRows(f, issues).value;
      && qs.Some?
      && (|qs.value| == 0 ==> |rows| == 1 && rows[0].featureTask == f.key && rows[0].qaTask == NA)
      && (|qs.value| > 0 ==> |rows| == |qs.value| && forall i :: 0 <= i < |rows| ==> rows[i].qaTask == qs.value[i].key)
  {
    var qs := LegacyQualifying(f.links, issues).value;
    if |qs| > 0 {
      var rows := LegacyFeatureRows(f, issues).value;
      forall i | 0 <= i < |rows| ensures rows[i].qaTask == qs[i].key {
        assert LegacyTaskDetails(f, Some(qs[i])) == Some(rows[i]);
      }
    }
  }

  /**
   * On a fetched Task whose triage is a list starting with a plain string and
   * whose status is present, the legacy and optimized qualification agree.
   */
  lemma QualificationAgrees(t: Issue)
    requires t.issuetype == Some(TaskType) && t.status.Some?
    requires t.triage.TriageList? && |t.triage.items| > 0 && t.triage.items[0].TriageText?
    ensures (LegacyTriageOk(t.triage) && t.status.value != Rejected) <==> QaFilter(t)
  {
  }

  /** A bare-string triage of "73317" qualifies in the optimized filter but not in the legacy one. */
  lemma BareStringTriageDiffers(t: Issue)
    requires t.issuetype == Some(TaskType) && t.status == Some("Open") && t.triage == TriageString(TriageSentinel)
    ensures QaFilter(t) && !LegacyTriageOk(t.triage)
  {
  }
}

=== FILE: store.dfy ===
/**
 * The document store behind `Database` (`packages/database/schema.py`): one
 * collection of the "tickets" database, as a flag saying whether it exists
 * and a map from each document's `_id` to its fields.
 */
module Store {
  import opened Wrappers

  /** A field value as the rows carry it: a string, a list of strings (`comments`), or null. */
  datatype Value = Str(s: string) | List(items: seq<string>) | Null

  type Doc = map<string, Value>

  const IdField: string := "_id"
  const CommentsField: string := "comments"
  const EffortField: string := "Effort"

  datatype Collection = Collection(present: bool, docs: map<string, Doc>)

  /** Why the server (or the driver, before reaching it) refuses a write. */
  datatype StoreError =
    | EmptyBatch         // insert_many with no documents
    | UnsupportedId      // a document whose `_id` is not a string
    | DuplicateKey(id: string)
    | ImmutableId        // `$set` that would change `_id`
    | PushNonArray       // `$push` onto a field that is not an array

  /** A write's effect: the collection afterwards, and what the call returns or raises. */
  datatype Outcome<+T> = Outcome(coll: Collection, answer: Result<T, StoreError>)

  /** Every document is stored under its own `_id`, and a collection that does not exist holds nothing. */
  ghost predicate Valid(c: Collection) {
    && (forall k :: k in c.docs ==> IdField in c.docs[k] && c.docs[k][IdField] == Str(k))
    && (!c.present ==> c.docs == map[])
  }

  function Count(c: Collection): nat {
    |c.docs|
  }

  /** `find_one({"_id": id})`. */
  function Find(c: Collection, id: string): (r: Option<Doc>)
    requires Valid(c)
    ensures r.Some? <==> id in c.docs
    ensures r.Some? ==> r.value == c.docs[id]
    ensures r.Some? ==> IdField in r.value && r.value[IdField] == Str(id)
  {
    if id in c.docs then Some(c.docs[id]) else None
  }

  // ---------------------------------------------------------------------------
  // insert_many (ordered)
  // ---------------------------------------------------------------------------

  function IdOf(d: Doc): Option<string> {
    if IdField in d && d[IdField].Str? then Some(d[IdField].s) else None
  }

  /** The ordered loop: each document goes in until the first one that fails, and the earlier ones stay. */
  function InsertEach(docs: map<string, Doc>, batch: seq<Doc>): (r: (map<string, Doc>, Option<StoreError>))
    ensures docs.Keys <= r.0.Keys
    ensures forall k :: k in docs ==> r.0[k] == docs[k]
    ensures r.1.None? ==> forall d :: d in batch ==> IdOf(d).Some?
    ensures r.1.None? ==> r.0.Keys == docs.Keys + IdsOf(batch)
    decreases |batch|
  {
    if |batch| == 0 then (docs, None)
    else
      var d := batch[0];
      match IdOf(d)
      case None => (docs, Some(UnsupportedId))
      case Some(id) =>
        if id in docs then (docs, Some(DuplicateKey(id)))
        else
          var rest := InsertEach(docs[id := d], batch[1..]);
          assert batch == [d] + batch[1..];
          IdsOfCons(d, batch[1..]);
          rest
  }

  /** A failed ordered insert stopped at one document, with exactly the documents before it written. */
  lemma {:induction false} InsertEachStops(docs: map<string, Doc>, batch: seq<Doc>)
    requires InsertEach(docs, batch).1.Some?
    ensures exists i :: StopsAt(docs, batch, i, InsertEach(docs, batch).0.Keys, InsertEach(docs, batch).1.value)
    decreases |batch|
  {
    var d := batch[0];
    if IdOf(d).Some? && IdOf(d).value !in docs {
      var id := IdOf(d).value;
      var rest := InsertEach(docs[id := d], batch[1..]);
      assert InsertEach(docs, batch) == rest;
      InsertEachStops(docs[id := d], batch[1..]);
      var i :| StopsAt(docs[id := d], batch[1..], i, rest.0.Keys, rest.1.value);
      assert batch == [d] + batch[1..];
      StopsAtCons(docs, d, id, batch[1..], i, rest.0.Keys, rest.1.value);
    } else {
      StopsAtHead(docs, batch);
    }
  }

  /** A first document without an id, or with one already stored, stops the insert before anything is written. */
  lemma StopsAtHead(docs: map<string, Doc>, batch: seq<Doc>)
    requires |batch| > 0 && (IdOf(batch[0]).None? || IdOf(batch[0]).value in docs)
    ensures StopsAt(docs, batch, 0, InsertEach(docs, batch).0.Keys, InsertEach(docs, batch).1.value)
  {
    assert batch[..0] == [];
    assert IdsOf([]) == {};
  }

  /** The ids a batch carries. */
  ghost function IdsOf(batch: seq<Doc>): set<string> {
    set d | d in batch && IdOf(d).Some? :: IdOf(d).value
  }

  lemma IdsOfCons(d: Doc, tail: seq<Doc>)
    ensures IdsOf([d] + tail) == (if IdOf(d).Some? then {IdOf(d).value} else {}) + IdsOf(tail)
  {
    assert forall e :: e in [d] + tail <==> e == d || e in tail;
  }

  /**
   * The ordered insert stopped at document `i`: everything before it carries an
   * id and is stored, nothing from `i` on is, and document `i` is refused for
   * lacking a string id or for an id already taken.
   */
  ghost predicate StopsAt(docs: map<string, Doc>, batch: seq<Doc>, i: int, stored: set<string>, err: StoreError) {
    && 0 <= i < |batch|
    && (forall j :: 0 <= j < i ==> IdOf(batch[j]).Some?)
    && stored == docs.Keys + IdsOf(batch[..i])
    && match IdOf(batch[i])
       case None => err == UnsupportedId
       case Some(id) => id in stored && err == DuplicateKey(id)
  }

  lemma StopsAtCons(docs: map<string, Doc>, d: Doc, id: string, tail: seq<Doc>, i: int, stored: set<string>, err: StoreError)
    requires IdOf(d) == Some(id)
    requires StopsAt(docs[id := d], tail, i, stored, err)
    ensures StopsAt(docs, [d] + tail, i + 1, stored, err)
  {
    var batch := [d] + tail;
    assert batch[..i + 1] == [d] + tail[..i];
    IdsOfCons(d, tail[..i]);
    assert batch[i + 1] == tail[i];
    forall j | 0 <= j < i + 1 ensures IdOf(batch[j]).Some? {
      if j > 0 { assert batch[j] == tail[j - 1]; }
    }
  }

  /**
   * `insert_many(batch).acknowledged`. `acked` is the write concern's answer;
   * the documents are written either way. An empty batch is refused before the
   * server is reached, so the collection is not created.
   */
  function Insert(c: Collection, batch: seq<Doc>, acked: bool): (r: Outcome<bool>)
    requires Valid(c)
    ensures Valid(r.coll)
    ensures |batch| == 0 ==> r == Outcome(c, Err(EmptyBatch))
    ensures r.answer.Ok? ==> r.answer.value == acked && r.coll.present
    ensures c.docs.Keys <= r.coll.docs.Keys
    ensures forall k :: k in c.docs ==> r.coll.docs[k] == c.docs[k]
  {
    if |batch| == 0 then Outcome(c, Err(EmptyBatch))
    else
      var (docs, failure) := InsertEach(c.docs, batch);
      InsertEachValid(c.docs, batch);
      var coll := Collection(c.present || docs != c.docs, docs);
      match failure
      case None =>
        assert batch[0] in batch;
        assert coll.present by {
          if !c.present {
            assert IdOf(batch[0]).value in docs.Keys;
          }
        }
        Outcome(coll, Ok(acked))
      case Some(e) => Outcome(coll, Err(e))
  }

  lemma {:induction false} InsertEachValid(docs: map<string, Doc>, batch: seq<Doc>)
    requires forall k :: k in docs ==> IdField in docs[k] && docs[k][IdField] == Str(k)
    ensures var r := InsertEach(docs, batch).0;
      forall k :: k in r ==> IdField in r[k] && r[k][IdField] == Str(k)
    decreases |batch|
  {
    if |batch| > 0 {
      var d := batch[0];
      match IdOf(d)
      case None =>
      case Some(id) =>
        if id !in docs {
          InsertEachValid(docs[id := d], batch[1..]);
        }
    }
  }

  /** Ids carried by a batch, in order. */
  predicate HasStringIds(batch: seq<Doc>) {
    forall i :: 0 <= i < |batch| ==> IdOf(batch[i]).Some?
  }

  /** No two documents of the batch share an id, and none is already stored. */
  predicate FreshIds(docs: map<string, Doc>, batch: seq<Doc>)
    requires HasStringIds(batch)
  {
    && (forall i :: 0 <= i < |batch| ==> IdOf(batch[i]).value !in docs)
    && (forall i, j :: 0 <= i < j < |batch| ==> IdOf(batch[i]).value != IdOf(batch[j]).value)
  }

  lemma {:induction false} InsertEachFresh(docs: map<string, Doc>, batch: seq<Doc>)
    requires HasStringIds(batch) && FreshIds(docs, batch)
    ensures var r := InsertEach(docs, batch);
      && r.1.None?
      && |r.0| == |docs| + |batch|
      && forall i :: 0 <= i < |batch| ==> IdOf(batch[i]).value in r.0 && r.0[IdOf(batch[i]).value] == batch[i]
    decreases |batch|
  {
    if |batch| > 0 {
      var d := batch[0];
      var id := IdOf(d).value;
      var tail := batch[1..];
      var docs' := docs[id := d];
      FreshTail(docs, batch);
      InsertEachHead(docs, batch);
      InsertEachFresh(docs', tail);
      var r := InsertEach(docs', tail).0;
      assert |docs'| == |docs| + 1 by {
        assert id !in docs;
      }
      assert id in r && r[id] == d by {
        assert id in docs';
      }
      forall i | 0 <= i < |batch| ensures IdOf(batch[i]).value in r && r[IdOf(batch[i]).value] == batch[i] {
        if i > 0 {
          assert tail[i - 1] == batch[i];
        }
      }
    }
  }

  /** A head with a fresh id is stored, and the loop carries on with the tail. */
  lemma InsertEachHead(docs: map<string, Doc>, batch: seq<Doc>)
    requires |batch| > 0 && IdOf(batch[0]).Some? && IdOf(batch[0]).value !in docs
    ensures InsertEach(docs, batch) == InsertEach(docs[IdOf(batch[0]).value := batch[0]], batch[1..])
  {
  }

  /** Storing the head of a fresh batch leaves its tail fresh. */
  lemma FreshTail(docs: map<string, Doc>, batch: seq<Doc>)
    requires |batch| > 0 && HasStringIds(batch) && FreshIds(docs, batch)
    ensures HasStringIds(batch[1..])
    ensures FreshIds(docs[IdOf(batch[0]).value := batch[0]], batch[1..])
  {
    var tail := batch[1..];
    var id := IdOf(batch[0]).value;
    assert HasStringIds(tail) by {
      forall i | 0 <= i < |tail| ensures IdOf(tail[i]).Some? { assert tail[i] == batch[i + 1]; }
    }
    forall i | 0 <= i < |tail| ensures IdOf(tail[i]).value !in docs[id := batch[0]] {
      assert tail[i] == batch[i + 1];
      assert IdOf(batch[0]).value != IdOf(batch[i + 1]).value;
    }
    forall i, j | 0 <= i < j < |tail| ensures IdOf(tail[i]).value != IdOf(tail[j]).value {
      assert tail[i] == batch[i + 1] && tail[j] == batch[j + 1];
    }
  }

  /**
   * After inserting a batch of fresh, distinct ids, each inserted document is
   * found under its id and the count has grown by the batch size.
   */
  lemma InsertThenFind(c: Collection, batch: seq<Doc>, acked: bool)
    requires Valid(c) && |batch| > 0 && HasStringIds(batch) && FreshIds(c.docs, batch)
    ensures var r := Insert(c, batch, acked);
      && r.answer == Ok(acked)
      && Count(r.coll) == Count(c) + |batch|
      && forall i :: 0 <= i < |batch| ==> Find(r.coll, IdOf(batch[i]).value) == Some(batch[i])
  {
    InsertEachFresh(c.docs, batch);
  }

  /** A document already stored under the same id makes the batch fail there; what came before it stays written. */
  lemma DuplicateStopsInsert(c: Collection, d: Doc, acked: bool)
    requires Valid(c) && IdOf(d).Some? && IdOf(d).value in c.docs
    ensures Insert(c, [d], acked) == Outcome(c, Err(DuplicateKey(IdOf(d).value)))
  {
  }

  // ---------------------------------------------------------------------------
  // update_one with $set / $push
  // ---------------------------------------------------------------------------

  /** The matched-document part of the `UpdateResult`. */
  datatype UpdateResult = UpdateResult(matched: bool)

  /**
   * `update_one({"_id": id}, {"$set": data})`: a field-level merge into the one
   * document with that id. No match is not an error and changes nothing; an
   * empty `$set` matches and changes nothing, as servers from MongoDB 5.0 on
   * accept it.
   */
  function Update(c: Collection, id: string, data: Doc): (r: Outcome<UpdateResult>)
    requires Valid(c)
    ensures Valid(r.coll)
    ensures r.answer.Err? ==> r.coll == c
    ensures r.answer.Err? <==> IdField in data && data[IdField] != Str(id)
    ensures data == map[] ==> r == Outcome(c, Ok(UpdateResult(id in c.docs)))
    ensures r.answer.Ok? ==> r.answer.value.matched == (id in c.docs)
    ensures r.coll.present == c.present && r.coll.docs.Keys == c.docs.Keys
    ensures forall k :: k in c.docs && k != id ==> r.coll.docs[k] == c.docs[k]
    ensures r.answer.Ok? && id in c.docs ==>
      && r.coll.docs[id].Keys == c.docs[id].Keys + data.Keys
      && (forall f :: f in data ==> r.coll.docs[id][f] == data[f])
      && (forall f :: f in c.docs[id] && f !in data ==> r.coll.docs[id][f] == c.docs[id][f])
  {
    if IdField in data && data[IdField] != Str(id) then Outcome(c, Err(ImmutableId))
    else if id !in c.docs then Outcome(c, Ok(UpdateResult(false)))
    else
      var merged := c.docs[id] + data;
      assert data == map[] ==> merged == c.docs[id];
      assert data == map[] ==> c.docs[id := merged] == c.docs;
      Outcome(c.(docs := c.docs[id := merged]), Ok(UpdateResult(true)))
  }

  /** `update_effort`: `$set` of the `Effort` field alone, answering `acknowledged`. */
  function UpdateEffort(c: Collection, id: string, effort: Value, acked: bool): (r: Outcome<bool>)
    requires Valid(c)
    ensures Valid(r.coll) && r.answer == Ok(acked)
    ensures r.coll.docs.Keys == c.docs.Keys
    ensures forall k :: k in c.docs && k != id ==> r.coll.docs[k] == c.docs[k]
    ensures id in c.docs ==>
      && r.coll.docs[id].Keys == c.docs[id].Keys + {EffortField}
      && r.coll.docs[id][EffortField] == effort
      && (forall f :: f in c.docs[id] && f != EffortField ==> r.coll.docs[id][f] == c.docs[id][f])
    ensures id !in c.docs ==> r.coll == c
  {
    var data := map[EffortField := effort];
    assert EffortField in data && IdField !in data;
    var u := Update(c, id, data);
    Outcome(u.coll, Ok(acked))
  }

  /** The comment thread of a document; a missing field reads as no comments. */
  function Comments(d: Doc): seq<string> {
    if CommentsField in d && d[CommentsField].List? then d[CommentsField].items else []
  }

  /**
   * `update_one({"_id": id}, {"$push": {"comments": comment}})`: appends to the
   * array, creating it when the field is missing; a field holding anything
   * else is refused.
   */
  function UpdateComments(c: Collection, id: string, comment: string, acked: bool): (r: Outcome<bool>)
    requires Valid(c)
    ensures Valid(r.coll)
    ensures r.answer.Err? ==> r.coll == c && r.answer.error == PushNonArray
    ensures r.answer.Ok? ==> r.answer.value == acked
    ensures r.coll.docs.Keys == c.docs.Keys
    ensures forall k :: k in c.docs && k != id ==> r.coll.docs[k] == c.docs[k]
    ensures id !in c.docs ==> r == Outcome(c, Ok(acked))
    ensures id in c.docs ==> (r.answer.Ok? <==> CommentsField !in c.docs[id] || c.docs[id][CommentsField].List?)
    ensures id in c.docs && r.answer.Ok? ==>
      var before := c.docs[id];
      var after := r.coll.docs[id];
      && after.Keys == before.Keys + {CommentsField}
      && after[CommentsField] == List(Comments(before) + [comment])
      && (forall f :: f in before && f != CommentsField ==> after[f] == before[f])
  {
    if id !in c.docs then Outcome(c, Ok(acked))
    else
      var d := c.docs[id];
      if CommentsField in d && !d[CommentsField].List? then Outcome(c, Err(PushNonArray))
      else
        Outcome(c.(docs := c.docs[id := d[CommentsField := List(Comments(d) + [comment])]]), Ok(acked))
  }

  /** Two pushes keep their order: the earlier comment comes first. */
  lemma CommentsAppendInOrder(c: Collection, id: string, a: string, b: string)
    requires Valid(c) && id in c.docs && CommentsField in c.docs[id] && c.docs[id][CommentsField].List?
    ensures var r1 := UpdateComments(c, id, a, true);
      var r2 := UpdateComments(r1.coll, id, b, true);
      && r2.answer == Ok(true)
      && r2.coll.docs[id][CommentsField] == List(c.docs[id][CommentsField].items + [a, b])
  {
    var xs := c.docs[id][CommentsField].items;
    assert xs + [a] + [b] == xs + [a, b];
  }

  // ---------------------------------------------------------------------------
  // delete_one / delete_many
  // ---------------------------------------------------------------------------

  /** `delete_one({"_id": id}).acknowledged`. */
  function Delete(c: Collection, id: string, acked: bool): (r: Outcome<bool>)
    requires Valid(c)
    ensures Valid(r.coll) && r.answer == Ok(acked)
    ensures id !in r.coll.docs
    ensures forall k :: k != id ==> (k in r.coll.docs <==> k in c.docs)
    ensures forall k :: k in r.coll.docs ==> r.coll.docs[k] == c.docs[k]
    ensures Count(r.coll) == if id in c.docs then Count(c) - 1 else Count(c)
  {
    Outcome(c.(docs := c.docs - {id}), Ok(acked))
  }

  /** `delete_many({}).acknowledged`: the collection stays but is emptied. */
  function DeleteAll(c: Collection, acked: bool): (r: Outcome<bool>)
    requires Valid(c)
    ensures Valid(r.coll) && r.answer == Ok(acked)
    ensures Count(r.coll) == 0 && r.coll.present == c.present
  {
    Outcome(c.(docs := map[]), Ok(acked))
  }

  /** A delete after an insert of one fresh document restores the count and the set of ids. */
  lemma InsertThenDelete(c: Collection, d: Doc)
    requires Valid(c) && IdOf(d).Some? && IdOf(d).value !in c.docs
    ensures var r1 := Insert(c, [d], true);
      var r2 := Delete(r1.coll, IdOf(d).value, true);
      r2.coll.docs == c.docs
  {
    var id := IdOf(d).value;
    assert InsertEach(c.docs, [d]) == InsertEach(c.docs[id := d], []);
    assert Insert(c, [d], true).coll.docs == c.docs[id := d];
    assert c.docs[id := d] - {id} == c.docs;
  }
}

=== FILE: sync.dfy ===
/**
 * Reconciliation of freshly fetched rows into the store (`packages/help.py`):
 * `force_refetch_and_update` (insert-or-update per ticket, with counters),
 * `balance` (read-through cache) and `comments_addition`.
 */
module Sync {
  import opened Wrappers
  import opened Store
  import opened Classifier
  import opened BulkFetch

  /**
   * What the store does with one ticket's writes: answer normally, apply the
   * write but answer "not acknowledged" (an unacknowledged write concern), or
   * raise (a driver or network failure, before anything is written).
   */
  datatype WriteFate = Acked | Unacked | Raises

  /** A fate list shorter than the batch leaves the remaining tickets `Acked`. */
  function FateAt(fates: seq<WriteFate>, i: nat): WriteFate {
    if i < |fates| then fates[i] else Acked
  }

  datatype Tally = Tally(updated: nat, inserted: nat, errors: nat)

  function Total(t: Tally): nat {
    t.updated + t.inserted + t.errors
  }

  /** The ten fields an existing document is refreshed with; `comments` and `Effort` are not among them. */
  const PayloadFields: seq<string> := [
    "Feature_status", "Feature_summary", "QA_task", "QA_status", "QA_assignee",
    "QA_labels", "Auto_task", "Auto_status", "TMS_task", "TMS_status"]

  /** `ticket.get(f)`: a field the ticket lacks is sent as null. */
  function Get(ticket: Doc, f: string): Value {
    if f in ticket then ticket[f] else Null
  }

  function Payload(ticket: Doc): (r: Doc)
    ensures r.Keys == set f | f in PayloadFields
    ensures forall f :: f in r ==> r[f] == Get(ticket, f)
    ensures CommentsField !in r && EffortField !in r && IdField !in r
  {
    map f | f in PayloadFields :: Get(ticket, f)
  }

  /** Python truthiness of `ticket.get("_id")`. */
  predicate HasTruthyId(ticket: Doc) {
    IdField in ticket &&
    match ticket[IdField]
    case Str(s) => s != ""
    case List(xs) => |xs| > 0
    case Null => false
  }

  /**
   * One iteration of the loop. A ticket without a truthy `_id` is skipped
   * and counted nowhere; a raise counts as an error and changes nothing; an
   * existing id gets the ten-field `$set` and counts as updated whatever the
   * acknowledgement, since the returned `UpdateResult` object is always
   * truthy; a new id is inserted whole and counts as inserted only when
   * acknowledged.
   */
  function SyncStep(c: Collection, ticket: Doc, fate: WriteFate, t: Tally): (r: (Collection, Tally))
    requires Valid(c)
    ensures Valid(r.0)
    ensures !HasTruthyId(ticket) ==> r == (c, t)
    ensures HasTruthyId(ticket) ==> Total(r.1) == Total(t) + 1
    ensures fate == Raises ==> r.0 == c && r.1.updated == t.updated && r.1.inserted == t.inserted
    ensures HasTruthyId(ticket) && fate != Raises && IdOf(ticket).Some? && IdOf(ticket).value in c.docs ==>
      r.1 == t.(updated := t.updated + 1) && r.0 == Update(c, IdOf(ticket).value, Payload(ticket)).coll
    ensures HasTruthyId(ticket) && fate == Acked && IdOf(ticket).Some? && IdOf(ticket).value !in c.docs ==>
      r.1 == t.(inserted := t.inserted + 1) && r.0.docs == c.docs[IdOf(ticket).value := ticket]
    ensures HasTruthyId(ticket) && fate == Unacked && IdOf(ticket).Some? && IdOf(ticket).value !in c.docs ==>
      r.1 == t.(errors := t.errors + 1) && r.0.docs == c.docs[IdOf(ticket).value := ticket]
    ensures HasTruthyId(ticket) && IdOf(ticket).None? ==> r.1 == t.(errors := t.errors + 1) && r.0.docs == c.docs
    ensures c.docs.Keys <= r.0.docs.Keys && (c.present ==> r.0.present)
  {
    if !HasTruthyId(ticket) then (c, t)
    else if fate == Raises then (c, t.(errors := t.errors + 1))
    else
      match IdOf(ticket)
      case Some(id) =>
        if id in c.docs then
          // the payload never carries `_id`, so `$set` cannot be refused
          var u := Update(c, id, Payload(ticket));
          (u.coll, t.(updated := t.updated + 1))
        else
          var o := Insert(c, [ticket], fate == Acked);
          assert InsertEach(c.docs, [ticket]) == InsertEach(c.docs[id := ticket], []);
          if o.answer == Ok(true) then (o.coll, t.(inserted := t.inserted + 1))
          else (o.coll, t.(errors := t.errors + 1))
      case None =>
        // an array `_id` is looked up in vain and then refused on insert
        var o := Insert(c, [ticket], fate == Acked);
        (o.coll, t.(errors := t.errors + 1))
  }

  /** Tickets from position `i` on. */
  function SyncFrom(c: Collection, tickets: seq<Doc>, fates: seq<WriteFate>, i: nat, t: Tally): (r: (Collection, Tally))
    requires Valid(c) && i <= |tickets|
    ensures Valid(r.0)
    decreases |tickets| - i
  {
    if i == |tickets| then (c, t)
    else
      var s := SyncStep(c, tickets[i], FateAt(fates, i), t);
      SyncFrom(s.0, tickets, fates, i + 1, s.1)
  }

  /** The whole loop from zeroed counters. */
  function Reconcile(c: Collection, tickets: seq<Doc>, fates: seq<WriteFate>): (r: (Collection, Tally))
    requires Valid(c)
    ensures Valid(r.0)
  {
    SyncFrom(c, tickets, fates, 0, Tally(0, 0, 0))
  }

  /**
   * `force_refetch_and_update`. `fetched` is what `fetch_tickets` returns or
   * raises; it is only consulted when the collection exists.
   */
  function ForceRefetchAndUpdate(c: Collection, fetched: Result<seq<Doc>, FetchError>,
                                 fates: seq<WriteFate>): (r: (Collection, Result<bool, FetchError>))
    requires Valid(c)
    ensures Valid(r.0)
    ensures !c.present ==> r == (c, Ok(false))
    ensures c.present && fetched.Err? ==> r == (c, Err(fetched.error))
    ensures c.present && fetched == Ok([]) ==> r == (c, Ok(false))
    ensures c.present && fetched.Ok? ==>
      var (coll, t) := Reconcile(c, fetched.value, fates);
      r == (coll, Ok(t.updated + t.inserted > 0))
  {
    if !c.present then (c, Ok(false))
    else
      match fetched
      case Err(e) => (c, Err(e))
      case Ok(tickets) =>
        if |tickets| == 0 then (c, Ok(false))
        else
          var (coll, t) := Reconcile(c, tickets, fates);
          (coll, Ok(t.updated + t.inserted > 0))
  }

  // ---------------------------------------------------------------------------
  // Properties of the loop
  // ---------------------------------------------------------------------------

  /** How many tickets of `tickets[i..]` carry a truthy `_id`. */
  function TruthyCount(tickets: seq<Doc>, i: nat): nat
    requires i <= |tickets|
    decreases |tickets| - i
  {
    if i == |tickets| then 0 else (if HasTruthyId(tickets[i]) then 1 else 0) + TruthyCount(tickets, i + 1)
  }

  /** Every ticket with a truthy `_id` is counted exactly once, as updated, inserted or error; the others are not counted. */
  lemma {:induction false} EveryTicketCountedOnce(c: Collection, tickets: seq<Doc>, fates: seq<WriteFate>, i: nat, t: Tally)
    requires Valid(c) && i <= |tickets|
    ensures Total(SyncFrom(c, tickets, fates, i, t).1) == Total(t) + TruthyCount(tickets, i)
    decreases |tickets| - i
  {
    if i < |tickets| {
      var s := SyncStep(c, tickets[i], FateAt(fates, i), t);
      EveryTicketCountedOnce(s.0, tickets, fates, i + 1, s.1);
    }
  }

  /**
   * Nothing is deleted, and on every document that was stored before, the
   * fields outside the ten-field payload (`comments`, `Effort`, `_id`, ...)
   * keep their presence and their values.
   */
  ghost predicate KeepsUnsynced(c: Collection, c': Collection) {
    && c.docs.Keys <= c'.docs.Keys
    && forall k, f :: k in c.docs && f !in PayloadFields ==>
         (f in c'.docs[k] <==> f in c.docs[k]) && (f in c.docs[k] ==> c'.docs[k][f] == c.docs[k][f])
  }

  lemma StepKeepsUnsynced(c: Collection, ticket: Doc, fate: WriteFate, t: Tally)
    requires Valid(c)
    ensures KeepsUnsynced(c, SyncStep(c, ticket, fate, t).0)
  {
  }

  lemma {:induction false} SyncKeepsUnsynced(c: Collection, tickets: seq<Doc>, fates: seq<WriteFate>, i: nat, t: Tally)
    requires Valid(c) && i <= |tickets|
    ensures KeepsUnsynced(c, SyncFrom(c, tickets, fates, i, t).0)
    decreases |tickets| - i
  {
    if i < |tickets| {
      var s := SyncStep(c, tickets[i], FateAt(fates, i), t);
      StepKeepsUnsynced(c, tickets[i], FateAt(fates, i), t);
      SyncKeepsUnsynced(s.0, tickets, fates, i + 1, s.1);
    }
  }

  /** A refetch never deletes a document and never touches a stored document's comments or effort. */
  lemma RefetchKeepsCommentsAndEffort(c: Collection, fetched: Result<seq<Doc>, FetchError>, fates: seq<WriteFate>)
    requires Valid(c)
    ensures var c' := ForceRefetchAndUpdate(c, fetched, fates).0;
      && c.docs.Keys <= c'.docs.Keys
      && forall k :: k in c.docs ==>
           && Comments(c'.docs[k]) == Comments(c.docs[k])
           && (EffortField in c'.docs[k] <==> EffortField in c.docs[k])
           && (EffortField in c.docs[k] ==> c'.docs[k][EffortField] == c.docs[k][EffortField])
  {
    if c.present && fetched.Ok? && |fetched.value| > 0 {
      SyncKeepsUnsynced(c, fetched.value, fates, 0, Tally(0, 0, 0));
      var c' := ForceRefetchAndUpdate(c, fetched, fates).0;
      assert CommentsField !in PayloadFields && EffortField !in PayloadFields;
      forall k | k in c.docs
        ensures Comments(c'.docs[k]) == Comments(c.docs[k])
      {
        assert (CommentsField in c'.docs[k] <==> CommentsField in c.docs[k]);
      }
    }
  }

  /** An existing collection keeps existing. */
  lemma {:induction false} PresenceKept(c: Collection, tickets: seq<Doc>, fates: seq<WriteFate>, i: nat, t: Tally)
    requires Valid(c) && i <= |tickets| && c.present
    ensures SyncFrom(c, tickets, fates, i, t).0.present
    decreases |tickets| - i
  {
    if i < |tickets| {
      var s := SyncStep(c, tickets[i], FateAt(fates, i), t);
      PresenceKept(s.0, tickets, fates, i + 1, s.1);
    }
  }

  /** When every write raises, the store is unchanged and the answer is false. */
  lemma {:induction false} AllRaisingChangesNothing(c: Collection, tickets: seq<Doc>, fates: seq<WriteFate>, i: nat, t: Tally)
    requires Valid(c) && i <= |tickets|
    requires forall j :: i <= j < |tickets| ==> FateAt(fates, j) == Raises
    ensures var r := SyncFrom(c, tickets, fates, i, t);
      r.0 == c && r.1.updated == t.updated && r.1.inserted == t.inserted
    decreases |tickets| - i
  {
    if i < |tickets| {
      var s := SyncStep(c, tickets[i], FateAt(fates, i), t);
      AllRaisingChangesNothing(s.0, tickets, fates, i + 1, s.1);
    }
  }

  lemma AllRaisingAnswersFalse(c: Collection, tickets: seq<Doc>, fates: seq<WriteFate>)
    requires Valid(c) && forall j :: 0 <= j < |tickets| ==> FateAt(fates, j) == Raises
    ensures ForceRefetchAndUpdate(c, Ok(tickets), fates) == (c, Ok(false))
  {
    AllRaisingChangesNothing(c, tickets, fates, 0, Tally(0, 0, 0));
  }

  /**
   * Non-empty string ids, pairwise distinct. The row builder's ids are distinct
   * only when no feature links the same QA task twice and feature keys are
   * distinct, so this is an assumption about the fetched batch.
   */
  predicate SyncableIds(tickets: seq<Doc>) {
    && HasStringIds(tickets)
    && (forall i :: 0 <= i < |tickets| ==> IdOf(tickets[i]).value != "")
    && (forall i, j :: 0 <= i < j < |tickets| ==> IdOf(tickets[i]).value != IdOf(tickets[j]).value)
  }

  /** One acknowledged ticket with a fresh, non-empty id is inserted whole and counted as inserted. */
  lemma FreshTicketInserted(c: Collection, ticket: Doc, t: Tally)
    requires Valid(c) && IdOf(ticket).Some? && IdOf(ticket).value != "" && IdOf(ticket).value !in c.docs
    ensures var s := SyncStep(c, ticket, Acked, t);
      s.1 == t.(inserted := t.inserted + 1) && s.0.docs == c.docs[IdOf(ticket).value := ticket]
  {
    assert HasTruthyId(ticket);
  }

  lemma {:induction false} FirstRunInserts(c: Collection, tickets: seq<Doc>, i: nat, t: Tally)
    requires Valid(c) && i <= |tickets| && SyncableIds(tickets)
    requires forall j :: i <= j < |tickets| ==> IdOf(tickets[j]).value !in c.docs
    ensures var r := SyncFrom(c, tickets, [], i, t);
      && r.1 == t.(inserted := t.inserted + (|tickets| - i))
      && (forall k :: k in c.docs ==> k in r.0.docs && r.0.docs[k] == c.docs[k])
      && (forall j :: i <= j < |tickets| ==> IdOf(tickets[j]).value in r.0.docs && r.0.docs[IdOf(tickets[j]).value] == tickets[j])
    decreases |tickets| - i
  {
    if i == |tickets| {
      assert t.(inserted := t.inserted + 0) == t;
    } else {
      var id := IdOf(tickets[i]).value;
      var s := SyncStep(c, tickets[i], Acked, t);
      FirstRunStep(c, tickets, i, t);
      FirstRunInserts(s.0, tickets, i + 1, s.1);
      var r := SyncFrom(s.0, tickets, [], i + 1, s.1);
      assert r.1.inserted == t.inserted + (|tickets| - i);
      assert r.1 == t.(inserted := t.inserted + (|tickets| - i));
      assert id in r.0.docs && r.0.docs[id] == tickets[i] by {
        assert id in s.0.docs && s.0.docs[id] == tickets[i];
      }
      forall k | k in c.docs ensures k in r.0.docs && r.0.docs[k] == c.docs[k] {
        assert k in s.0.docs && s.0.docs[k] == c.docs[k];
      }
      forall j | i < j < |tickets| ensures IdOf(tickets[j]).value in r.0.docs && r.0.docs[IdOf(tickets[j]).value] == tickets[j] {
      }
    }
  }

  /** One step of the first run: the ticket at `i` is inserted and the rest of the batch stays fresh. */
  lemma FirstRunStep(c: Collection, tickets: seq<Doc>, i: nat, t: Tally)
    requires Valid(c) && i < |tickets| && SyncableIds(tickets)
    requires forall j :: i <= j < |tickets| ==> IdOf(tickets[j]).value !in c.docs
    ensures var s := SyncStep(c, tickets[i], Acked, t);
      && s.1 == t.(inserted := t.inserted + 1)
      && s.0.docs == c.docs[IdOf(tickets[i]).value := tickets[i]]
      && SyncFrom(c, tickets, [], i, t) == SyncFrom(s.0, tickets, [], i + 1, s.1)
      && forall j :: i + 1 <= j < |tickets| ==> IdOf(tickets[j]).value !in s.0.docs
  {
    var id := IdOf(tickets[i]).value;
    FreshTicketInserted(c, tickets[i], t);
    assert FateAt([], i) == Acked;
    assert forall j :: i + 1 <= j < |tickets| ==> IdOf(tickets[j]).value != id;
  }

  lemma {:induction false} SecondRunUpdates(c: Collection, tickets: seq<Doc>, i: nat, t: Tally)
    requires Valid(c) && i <= |tickets| && SyncableIds(tickets)
    requires forall j :: i <= j < |tickets| ==> IdOf(tickets[j]).value in c.docs
    ensures var r := SyncFrom(c, tickets, [], i, t);
      r.1 == t.(updated := t.updated + (|tickets| - i)) && r.0.docs.Keys == c.docs.Keys
    decreases |tickets| - i
  {
    if i < |tickets| {
      var s := SyncStep(c, tickets[i], Acked, t);
      assert SyncFrom(c, tickets, [], i, t) == SyncFrom(s.0, tickets, [], i + 1, s.1) by {
        assert FateAt([], i) == Acked;
      }
      assert s.1 == t.(updated := t.updated + 1) && s.0.docs.Keys == c.docs.Keys by {
        assert HasTruthyId(tickets[i]);
      }
      SecondRunUpdates(s.0, tickets, i + 1, s.1);
    }
  }

  /** The first run against an existing, empty collection inserts every ticket and answers true. */
  lemma RefetchInsertsAll(c: Collection, tickets: seq<Doc>)
    requires Valid(c) && c.present && c.docs == map[] && |tickets| > 0 && SyncableIds(tickets)
    ensures var r := ForceRefetchAndUpdate(c, Ok(tickets), []);
      && r.1 == Ok(true)
      && r.0.present
      && FindsAll(r.0, tickets)
      && Reconcile(c, tickets, []) == (r.0, Tally(0, |tickets|, 0))
  {
    FirstRunStores(c, tickets);
    RefetchReconciles(c, tickets, []);
  }

  /** On an existing collection and a non-empty batch, `force_refetch_and_update` is the loop. */
  lemma RefetchReconciles(c: Collection, tickets: seq<Doc>, fates: seq<WriteFate>)
    requires Valid(c) && c.present && |tickets| > 0
    ensures var r := Reconcile(c, tickets, fates);
      && r == SyncFrom(c, tickets, fates, 0, Tally(0, 0, 0))
      && ForceRefetchAndUpdate(c, Ok(tickets), fates) == (r.0, Ok(r.1.updated + r.1.inserted > 0))
  {
  }

  /** The loop part of `RefetchInsertsAll`, from zeroed counters. */
  lemma FirstRunStores(c: Collection, tickets: seq<Doc>)
    requires Valid(c) && c.present && c.docs == map[] && SyncableIds(tickets)
    ensures var r1 := SyncFrom(c, tickets, [], 0, Tally(0, 0, 0));
      r1.1 == Tally(0, |tickets|, 0) && r1.0.present && FindsAll(r1.0, tickets)
  {
    var zero := Tally(0, 0, 0);
    FirstRunInserts(c, tickets, 0, zero);
    PresenceKept(c, tickets, [], 0, zero);
    FindsStored(SyncFrom(c, tickets, [], 0, zero).0, tickets);
  }

  /** `find_one` by each ticket's id returns exactly that ticket. */
  ghost predicate FindsAll(c: Collection, tickets: seq<Doc>)
    requires Valid(c)
  {
    forall j :: 0 <= j < |tickets| ==> IdOf(tickets[j]).Some? && Find(c, IdOf(tickets[j]).value) == Some(tickets[j])
  }

  /** Every ticket stored under its own id is what `find_one` returns for that id. */
  lemma FindsStored(c: Collection, tickets: seq<Doc>)
    requires Valid(c) && HasStringIds(tickets)
    requires forall j :: 0 <= j < |tickets| ==> IdOf(tickets[j]).value in c.docs && c.docs[IdOf(tickets[j]).value] == tickets[j]
    ensures FindsAll(c, tickets)
  {
  }

  /** A run over tickets that are all stored already updates every one of them and answers true. */
  lemma RefetchUpdatesAll(c: Collection, tickets: seq<Doc>)
    requires Valid(c) && c.present && |tickets| > 0 && SyncableIds(tickets)
    requires forall j :: 0 <= j < |tickets| ==> IdOf(tickets[j]).value in c.docs
    ensures var r2 := Reconcile(c, tickets, []);
      && r2.1 == Tally(|tickets|, 0, 0)
      && r2.0.docs.Keys == c.docs.Keys
      && ForceRefetchAndUpdate(c, Ok(tickets), []) == (r2.0, Ok(true))
  {
    SecondRunUpdates(c, tickets, 0, Tally(0, 0, 0));
  }

  /**
   * The same batch run twice against an existing, empty collection: the first
   * run inserts every ticket, the second updates every one of them, and both
   * answer true.
   */
  lemma RefetchTwice(c: Collection, tickets: seq<Doc>)
    requires Valid(c) && c.present && c.docs == map[] && |tickets| > 0 && SyncableIds(tickets)
    ensures var r1 := ForceRefetchAndUpdate(c, Ok(tickets), []);
      var r2 := ForceRefetchAndUpdate(r1.0, Ok(tickets), []);
      && r1.1 == Ok(true) && r2.1 == Ok(true)
      && Reconcile(c, tickets, []).1 == Tally(0, |tickets|, 0)
      && Reconcile(r1.0, tickets, []).1 == Tally(|tickets|, 0, 0)
      && r2.0.docs.Keys == r1.0.docs.Keys
  {
    RefetchInsertsAll(c, tickets);
    var r1 := Reconcile(c, tickets, []);
    forall j | 0 <= j < |tickets| ensures IdOf(tickets[j]).value in r1.0.docs {
      assert Find(r1.0, IdOf(tickets[j]).value).Some?;
    }
    RefetchUpdatesAll(r1.0, tickets);
  }

  // ---------------------------------------------------------------------------
  // balance and comments_addition
  // ---------------------------------------------------------------------------

  /**
   * `balance`: an existing collection is returned as stored, without
   * fetching; otherwise the fetched tickets are inserted and the stored
   * documents returned, and `None` stands for the `False` returned when the
   * fetch or the insert raises or the insert is not acknowledged.
   */
  function Balance(c: Collection, fetched: Result<seq<Doc>, FetchError>, acked: bool): (r: (Collection, Option<map<string, Doc>>))
    requires Valid(c)
    ensures Valid(r.0)
    ensures c.present ==> r == (c, Some(c.docs))
    ensures !c.present && fetched.Err? ==> r == (c, None)
    ensures !c.present && fetched == Ok([]) ==> r == (c, None)
    ensures !c.present && !acked ==> r.1 == None
    ensures r.1.Some? ==> r.0.present && r.1.value == r.0.docs
  {
    if c.present then (c, Some(c.docs))
    else
      match fetched
      case Err(_) => (c, None)
      case Ok(tickets) =>
        var o := Insert(c, tickets, acked);
        if o.answer == Ok(true) then (o.coll, Some(o.coll.docs)) else (o.coll, None)
  }

  /** The cache fills once: after a successful fill every fetched ticket is stored, and the next call reads without fetching. */
  lemma BalanceFillsThenReads(c: Collection, tickets: seq<Doc>, later: Result<seq<Doc>, FetchError>, acked: bool)
    requires Valid(c) && !c.present && |tickets| > 0 && HasStringIds(tickets) && FreshIds(c.docs, tickets)
    ensures var r := Balance(c, Ok(tickets), true);
      && r.1.Some?
      && Count(r.0) == |tickets|
      && (forall j :: 0 <= j < |tickets| ==> Find(r.0, IdOf(tickets[j]).value) == Some(tickets[j]))
      && Balance(r.0, later, acked) == (r.0, r.1)
  {
    InsertThenFind(c, tickets, true);
  }

  /** `comments_addition`: the comment goes to the end of that document's thread and nowhere else. */
  lemma CommentsAdditionAppends(c: Collection, id: string, comment: string)
    requires Valid(c) && id in c.docs && (CommentsField !in c.docs[id] || c.docs[id][CommentsField].List?)
    ensures var r := UpdateComments(c, id, comment, true);
      && r.answer == Ok(true)
      && Comments(r.coll.docs[id]) == Comments(c.docs[id]) + [comment]
      && forall k :: k in c.docs && k != id ==> r.coll.docs[k] == c.docs[k]
  {
  }

  // ---------------------------------------------------------------------------
  // Rows as documents
  // ---------------------------------------------------------------------------

  /** The JSON record of a row (`to_json(orient="records")`). */
  function RowDocument(row: Row): (d: Doc)
    ensures IdOf(d) == Some(row.id)
    ensures Comments(d) == row.comments
    ensures forall f :: f in PayloadFields ==> f in d && d[f].Str?
    ensures EffortField !in d
  {
    map[IdField := Str(row.id),
        "Feature_status" := Str(row.featureStatus),
        "Feature_summary" := Str(row.featureSummary),
        "QA_task" := Str(row.qaTask),
        "QA_status" := Str(row.qaStatus),
        "QA_assignee" := Str(row.qaAssignee),
        "QA_labels" := Str(row.qaLabels),
        "Auto_task" := Str(row.autoTask),
        "Auto_status" := Str(row.autoStatus),
        "TMS_task" := Str(row.tmsTask),
        "TMS_status" := Str(row.tmsStatus),
        CommentsField := List(row.comments)]
  }

  /** Refreshing a stored row document with the payload of the same row changes nothing. */
  lemma RefreshWithSameRowIsIdentity(c: Collection, row: Row)
    requires Valid(c) && row.id in c.docs && c.docs[row.id] == RowDocument(row)
    ensures Update(c, row.id, Payload(RowDocument(row))).coll == c
  {
    var d := RowDocument(row);
    assert d + Payload(d) == d;
    assert c.docs[row.id := d] == c.docs;
  }
}

=== FILE: text.dfy ===
/**
 * String helpers shared by the fetchers and the dashboard: ASCII case folding,
 * case-insensitive substring search (the `re.IGNORECASE` searches for "auto",
 * "tms" and the commitment marker), Python's `in`, `str.strip()` blankness,
 * `", ".join` and `str.split("|")[0]`.
 */
module Text {
  import opened Wrappers

  function LowerChar(c: char): char {
    if 'A' <= c <= 'Z' then (c as int + 32) as char else c
  }

  /** `pat` (given in lower case) occurs at position `i` of `s`, ignoring ASCII case. */
  predicate CiMatchAt(s: string, i: nat, pat: string) {
    i + |pat| <= |s| && forall k :: 0 <= k < |pat| ==> LowerChar(s[i + k]) == pat[k]
  }

  /** Case-insensitive `re.search(pat, s)` for a literal pattern written in lower case. */
  predicate ContainsCi(s: string, pat: string) {
    exists i | 0 <= i <= |s| :: CiMatchAt(s, i, pat)
  }

  /** `pat` occurs at position `i` of `s`, exactly. */
  predicate MatchAt(s: string, i: nat, pat: string) {
    i + |pat| <= |s| && s[i..i + |pat|] == pat
  }

  /** Python's `pat in s` for strings. */
  predicate Contains(s: string, pat: string) {
    exists i | 0 <= i <= |s| :: MatchAt(s, i, pat)
  }

  lemma ContainsWitness(s: string, pat: string, i: nat)
    requires MatchAt(s, i, pat)
    ensures Contains(s, pat)
  {
  }

  /** Python's `str.isspace()` for a single character. */
  predicate IsSpace(c: char) {
    || c == ' ' || '\t' <= c <= '\r' || '\U{1c}' <= c <= '\U{1f}' || c == '\U{85}' || c == '\U{a0}'
    || c == '\U{1680}' || '\U{2000}' <= c <= '\U{200a}' || c == '\U{2028}' || c == '\U{2029}'
    || c == '\U{202f}' || c == '\U{205f}' || c == '\U{3000}'
  }

  /** `not s.strip()`: nothing but whitespace is left after trimming. */
  predicate IsBlank(s: string) {
    forall k :: 0 <= k < |s| ==> IsSpace(s[k])
  }

  /** `", ".join(items)`. */
  function JoinComma(items: seq<string>): (r: string)
    ensures items == [] ==> r == ""
    ensures |items| == 1 ==> r == items[0]
  {
    if |items| == 0 then ""
    else if |items| == 1 then items[0]
    else JoinComma(items[..|items| - 1]) + ", " + items[|items| - 1]
  }

  /** `s.split("|")[0]`: everything before the first '|', or all of `s`. */
  function FirstSegment(s: string): (r: string)
    ensures '|' !in r
    ensures |r| <= |s| && r == s[..|r|]
    ensures |r| < |s| ==> s[|r|] == '|'
  {
    if |s| == 0 || s[0] == '|' then "" else [s[0]] + FirstSegment(s[1..])
  }

  /** Splitting a composite identity `a|b` gives back its first part when that part has no '|'. */
  lemma {:induction false} FirstSegmentOfJoin(a: string, b: string)
    requires '|' !in a
    ensures FirstSegment(a + "|" + b) == a
  {
    if |a| > 0 {
      assert (a + "|" + b)[1..] == a[1..] + "|" + b;
      FirstSegmentOfJoin(a[1..], b);
    } else {
      assert (a + "|" + b)[0] == '|';
    }
  }

  lemma {:induction false} FirstSegmentNoBar(a: string)
    requires '|' !in a
    ensures FirstSegment(a) == a
  {
    if |a| > 0 {
      FirstSegmentNoBar(a[1..]);
    }
  }

  // ---------------------------------------------------------------------------
  // The commitment marker `#teams_committed.*?QA` under re.IGNORECASE.
  // `.` does not match a newline, so the tag and "QA" must be on one line.
  // ---------------------------------------------------------------------------

  const CommitTag: string := "#teams_committed"
  const QaTag: string := "qa"

  /** No '\n' in `s[from..to]`. */
  predicate NoNewline(s: string, from: nat, to: nat)
    requires from <= to <= |s|
  {
    forall k :: from <= k < to ==> s[k] != '\n'
  }

  /** A match of the marker that starts at `i` and whose "QA" starts at `j`. */
  predicate MarkerSpanAt(s: string, i: nat, j: nat) {
    && i + |CommitTag| <= j
    && CiMatchAt(s, i, CommitTag)
    && CiMatchAt(s, j, QaTag)
    && NoNewline(s, i + |CommitTag|, j)
  }

  /** `re.search(r'#teams_committed.*?QA', s, re.IGNORECASE)` is not None. */
  predicate MatchesCommitMarker(s: string) {
    exists i, j | 0 <= i <= j <= |s| :: MarkerSpanAt(s, i, j)
  }

  /**
   * The span `re.search` reports: the leftmost start `i`, and for it the
   * shortest (non-greedy) run up to the first "QA" on the same line.
   */
  method SearchCommitMarker(s: string) returns (m: Option<(nat, nat)>)
    ensures m.None? <==> !MatchesCommitMarker(s)
    ensures m.Some? ==> MarkerSpanAt(s, m.value.0, m.value.1)
    ensures m.Some? ==> forall i, j :: 0 <= i < m.value.0 && i <= j <= |s| ==> !MarkerSpanAt(s, i, j)
    ensures m.Some? ==> forall j :: m.value.0 <= j < m.value.1 ==> !MarkerSpanAt(s, m.value.0, j)
  {
    var i := 0;
    while i < |s|
      invariant 0 <= i <= |s|
      invariant forall i', j :: 0 <= i' < i && i' <= j <= |s| ==> !MarkerSpanAt(s, i', j)
    {
      if CiMatchAt(s, i, CommitTag) {
        var j := i + |CommitTag|;
        while j < |s| && s[j] != '\n'
          invariant i + |CommitTag| <= j <= |s|
          invariant NoNewline(s, i + |CommitTag|, j)
          invariant forall j' :: i <= j' < j ==> !MarkerSpanAt(s, i, j')
        {
          if CiMatchAt(s, j, QaTag) {
            assert MarkerSpanAt(s, i, j);
            m := Some((i, j));
            return;
          }
          j := j + 1;
        }
        // Every later start of "QA" on this line is past a newline, or past the end.
        forall j' | i <= j' <= |s|
          ensures !MarkerSpanAt(s, i, j')
        {
          if j' == j && j < |s| {
            assert LowerChar(s[j]) != QaTag[0];
          } else if j' > j {
            assert s[j] == '\n' && i + |CommitTag| <= j < j';
          }
        }
      }
      i := i + 1;
    }
    m := None;
  }
}

=== FILE: tracker.dfy ===
/**
 * The issue tracker's records, as the fetchers see them after asking for a
 * field projection. Every attribute the code reads through `getattr(..., None)`
 * or `or` is optional here; `None` is the missing attribute.
 */
module Tracker {
  import opened Wrappers

  /** The issue embedded on one side of an issue link. */
  datatype LinkedIssue = LinkedIssue(
    key: Option<string>,
    issuetype: Option<string>,
    summary: Option<string>,
    status: Option<string>)

  /**
   * An issue link: the inward label of its relationship type
   * (`link.raw['type']['inward']`) and whichever sides it carries.
   */
  datatype Link = Link(inwardLabel: Option<string>, inward: Option<LinkedIssue>, outward: Option<LinkedIssue>)

  datatype Assignee = Assignee(displayName: Option<string>, name: Option<string>, accountId: Option<string>)

  /**
   * One value of the triage custom field: a plain string, or an option object
   * whose `str()` is `rendered` but which is not itself a string.
   */
  datatype TriageItem = TriageText(text: string) | TriageOption(rendered: string)

  /** The triage custom field: absent, a list of values, or a bare string. */
  datatype Triage = NoTriage | TriageList(items: seq<TriageItem>) | TriageString(text: string)

  /**
   * A fetched issue: a feature (key, status, summary, description, links) or a
   * candidate QA task (which also carries assignee, labels, issue type, triage).
   * `status` and `issuetype` hold the `.name` of the status and type objects.
   */
  datatype Issue = Issue(
    key: string,
    status: Option<string>,
    summary: Option<string>,
    description: Option<string>,
    assignee: Option<Assignee>,
    labels: seq<string>,
    links: seq<Link>,
    issuetype: Option<string>,
    triage: Triage)

  /** Python truthiness of an optional string. */
  predicate Truthy(o: Option<string>) {
    o.Some? && o.value != ""
  }

  /** `o or "NA"`. */
  function OrNA(o: Option<string>): string {
    if Truthy(o) then o.value else "NA"
  }

  /** The status name, or "NA" when the status object is missing (`getattr(status, 'name', 'NA')`). */
  function StatusName(status: Option<string>): string {
    status.GetOr("NA")
  }
}

=== FILE: wrappers.dfy ===
/** Absence and failure, made explicit instead of Python's None and exceptions. */
module Wrappers {

  /** A value that may be missing (Python `None`). */
  datatype Option<+T> = None | Some(value: T) {
    function GetOr(default: T): T {
      match this
      case Some(v) => v
      case None => default
    }
  }

  /** The outcome of a call that may raise: `Err` stands for the exception. */
  datatype Result<+T, +E> = Ok(value: T) | Err(error: E)
}
